=== FILE: README.md ===
# comparador.js — a verified model of the invoice / lab-report reconciliation

`comparador.js` checks a truck load. It takes two NF-e invoices (XML) and one
lab report (laudo, comma-, semicolon- or tab-separated text) and compares them.
It pulls out the following:

- from each invoice: the invoice number, the net and gross weights, the
  trailer plate and the seal numbers (lacres);
- from the report: the same number, plate and seals, plus a product code and
  a production date.

It then computes the product's expiry date from a fixed table of shelf
lives. Finally it builds a five-row comparison table (Nota Fiscal, Peso
Líquido, Peso Bruto, Placa da Carreta, Lacres) and a product summary. Each row
has an "ok", "erro" or "N/A" status.

The model covers the definitions inside the file's immediately invoked
function, which are the ones `compararFiles` calls. One Dafny module per
concern:

| module | file | models |
|---|---|---|
| `Text` | text.dfy | `trim`, `split`, ASCII `toUpperCase`/`toLowerCase`, `includes`, `a \|\| b` on strings, decimal digits |
| `Patterns` | patterns.dfy | the fixed regular expressions, as leftmost-match scanners with JavaScript's backtracking order |
| `Normalize` | normalize.dfy | `normalizaPlaca`, `normalizaNota` |
| `Calendar` | calendar.dfy | proleptic Gregorian day numbers, `setDate(getDate() + n)`, `toLocaleDateString('pt-BR')` |
| `Expiry` | expiry.dfy | `validadePorCodigo`, including `Number` on its inputs and the `Date` constructor's roll-over |
| `LabReport` | lab_report.dfy | the scan in `parseCSV` |
| `Invoice` | invoice.dfy | `safeText`, `findTagText`, the extraction in `parseXML` |
| `Reconcile` | reconcile.dfy | the rows and product summary of `compararFiles` |

Where the source is a loop, the model has a method and a specification
function, and the method is proved equal to the function:

- `LabReport.ScanLines` for the line loop of `parseCSV`;
- `Invoice.FindTagText` for the element walk of `findTagText`;
- `Invoice.ScanKeywordElements` for the trailer-element loop;
- `Expiry.FindShelfLife` for the table loop with `break`.

The lemmas are stated about those functions. `Reconcile.CompararFiles` has no
loop but rewrites the three plates in place, so it is a method too, proved
equal to the function `Reconcile.Comparar` applied to the parsed documents.

Notes on the code's behaviour, which the model follows:

- The report's invoice number is the first run of four or more digits on
  any line. No "nota" keyword is needed, so on a line holding only a date
  the year is taken (`LabReport.DateLineGivesNota`).
- `normalizaNota` strips the zeros before trimming, so it is not idempotent
  on text with leading or inner white space: ` 05` and `0 05` both give
  `05`, which then gives `5` (`Normalize.NormalizaNotaNotIdempotent`). It is
  idempotent on text without white space.
- The shelf-life table is walked in JavaScript's key order for integer-like
  keys, which is ascending: 7, 15, 60, 180, 365. The code lists are pairwise
  disjoint, so the order never changes the result
  (`Expiry.ShelfLifeOfListed`).
- In an invoice with two or more `placa` elements, a blank second one sends
  the search straight to the trailer-element stage. `findTagText('placa')`
  is not consulted in that case (`Invoice.TagPlaca`).
- Plates found by tag (stages 1 and 2) are not upper-cased. Only stages 3
  and 4 upper-case their match. Every plate is upper-cased later by
  `normalizaPlaca`.

## Model

| member | source | states |
|---|---|---|
| Normalize.NormalizaPlaca | comparador.js:322-329 | empty input gives ""; the result holds only upper-case ASCII letters and digits; on text without a state suffix it is the text's letters and digits, in order, upper-cased |
| Normalize.NormalizaPlacaIdempotent | comparador.js:322-329 | normalising a normalised plate changes nothing |
| Normalize.StateSuffixFound | comparador.js:325 | the state-suffix expression matches at the `/` of text ending in `/`, white space and two letters, and not earlier |
| Normalize.StripsStateSuffix | comparador.js:325-328 | such a suffix is removed; the rest keeps exactly its letters and digits, upper-cased |
| Normalize.NormalizaPlacaOfPlate | comparador.js:326-328 | a plate-shaped text normalises to its letters and digits, upper-cased: a bare seven-character plate |
| Normalize.NormalizaPlacaOfPlateUf | comparador.js:325-328 | a plate with a `/UF` suffix normalises like the plate alone |
| Normalize.NormalizaPlacaOfMatch | comparador.js:322-329 | every plate the extractors can capture normalises to a bare plate |
| Normalize.NormalizaPlacaOfUpper | comparador.js:328 | upper-casing a plate first does not change its normal form |
| Normalize.NormalizaPlacaDashExample | comparador.js:322-329 | `DEF-5678` normalises to `DEF5678` |
| Normalize.DropLeadingZerosCuts | comparador.js:333 | `replace(/^0+/, '')` removes exactly the leading run of zeros and nothing else |
| Normalize.DropLeadingZerosValue | comparador.js:333 | on digits, dropping leading zeros keeps the number denoted |
| Normalize.NormalizaNotaOfZeros | comparador.js:331-334 | an all-zero (or empty) number normalises to "" |
| Normalize.NormalizaNota | comparador.js:331-334 | the empty number stays empty; on digits the result is digits, has no leading zero and denotes the same number |
| Normalize.NormalizaNotaIdempotent | comparador.js:331-334 | idempotent on text without white space |
| Normalize.NormalizaNotaNotIdempotent | comparador.js:331-334 | not idempotent in general: `0 05` and ` 05` give `05`, which gives `5` |
| Normalize.NormalizaNotaExample | comparador.js:331-334 | `00123` and `123` normalise to the same `123` |
| Text.DigitsWithoutLeadingZero | comparador.js:358 | two digit strings without leading zeros that denote the same number are equal, so normalised numbers compare by value |
| Text.TrimCuts | comparador.js:174 | `trim` returns the middle slice of its input and removes only white space around it |
| Text.JoinSplit | comparador.js:274 | splitting at a character and joining back gives the original text: no line is lost |
| Text.DecimalValueLeadingZero | comparador.js:249 | a leading zero does not change a code's value |
| Text.DecimalOfNatToString | comparador.js:265 | a year rendered in decimal reads back as the same number |
| Patterns.MatchAt | comparador.js:202 | a match found at an index starts there and ends inside the text |
| Patterns.SealAt | comparador.js:202 | group 1 of a match at the index is a non-empty run of digits and dashes that ends the match, is preceded by a character outside the run and is not followed by another digit or dash, so the greedy run is taken whole |
| Patterns.SealLabelled | comparador.js:202 | a match at the index starts with `lacre`, an optional `s` and a colon, and group 1 begins right after the colon and the white space that follows it |
| Patterns.LabelledPlateAt | comparador.js:227-231 | the `Carreta`/`Reboque` labelled match at an index starts with the label, lies inside the text, and captures from the end of the colons and white space after the label |
| Patterns.Search | comparador.js:280 | `match` finds the leftmost index where the expression matches, and there is none before it; `None` means no index matches |
| Patterns.SearchFinds | comparador.js:280 | the first matching index is what the search returns |
| Patterns.AllMatches | comparador.js:233 | the global match list is empty exactly when there is no match; its last entry is a real match after which nothing matches |
| Patterns.RunEndIsLongest | comparador.js:280 | a greedy run such as `\d{4,}` takes every class character and stops at the first other one |
| Patterns.PlateLen | comparador.js:284 | a plate match is seven or eight characters of plate shape |
| Patterns.PlateUfEnd | comparador.js:233 | the `/UF` variant matches exactly where a plate does, its match has plate-with-suffix shape, and a `/UF` right after the plate is always taken |
| Patterns.GreedySuffixExample | comparador.js:233-234 | in `ABC1234/SPA1B2C3` the `/g` scan finds only `ABC1234/SP` |
| Patterns.PlateCapture | comparador.js:284 | a plate match is the plate-shaped slice of the line |
| Patterns.PlateUfCapture | comparador.js:227-234 | every `infCpl` plate capture has plate shape with an optional `/UF` |
| Patterns.UpperPlateWithUf | comparador.js:228 | upper-casing keeps a plate a plate, and upper-casing twice is upper-casing once |
| Patterns.Digits4Capture | comparador.js:280 | the number capture is four or more digits, and a non-digit or the end of the line follows it |
| Patterns.DayMonthYearCapture | comparador.js:293 | the date capture has the `DD/MM/YYYY` shape |
| Patterns.SealCapture | comparador.js:297 | the seal capture begins right after `Lacres?:` and its white space, and is the whole non-empty run of digits and dashes there, ending where the match ends |
| Patterns.Digits4Found | comparador.js:280 | four digits at an index start a match there |
| Patterns.DayMonthYearFound | comparador.js:293 | a `DD/MM/YYYY` shape at an index is matched there, exactly |
| Patterns.PlateFound | comparador.js:284 | a plate, with or without its dash, at an index is matched there, exactly |
| Patterns.FoundSomewhere | comparador.js:280-294 | a match at any index means `l.match(re)` gives a non-empty capture |
| Patterns.CaptureNonEmpty | comparador.js:202 | no expression of the file captures the empty string, so an empty capture means no match |
| Calendar.DaysInMonth | comparador.js:264 | months have 28 to 31 days, and 29 exactly for February of a leap year |
| Calendar.DayNumberInjective | comparador.js:263 | two valid dates with the same day number are the same date |
| Calendar.YearStep | comparador.js:263 | consecutive years are one year length apart |
| Calendar.MonthStep | comparador.js:263 | consecutive months are one month length apart; thirteen months make the year |
| Calendar.NextMonth | comparador.js:264 | the first of the next month is valid and lies the remaining days plus one later |
| Calendar.AddDays | comparador.js:264 | moving `k` days on gives a valid date whose day number is `k` larger |
| Calendar.FromDayNumber | comparador.js:264-265 | every non-negative day number has a valid date |
| Calendar.FromDayNumberOfValid | comparador.js:263-265 | `FromDayNumber` inverts `DayNumber` on valid dates |
| Calendar.AddDaysByNumber | comparador.js:264 | walking `k` days and adding `k` to the day number agree |
| Calendar.Pad2 | comparador.js:265 | a day or month is rendered as two digits that read back as its value |
| Calendar.FormatPtBrFields | comparador.js:265 | the rendering splits at `/` into day, month and a year that reads back as the year |
| Expiry.JsNumberOfDigits | comparador.js:249 | `Number` on a digit string is its decimal value |
| Expiry.JsNumberLeadingZero | comparador.js:249 | leading zeros in a code are ignored |
| Expiry.PrazosDisjoint | comparador.js:250-256 | no code is listed under two shelf lives |
| Expiry.ShelfLifeOfListed | comparador.js:257-258 | a listed code gets the days of the entry listing it, which are not zero |
| Expiry.ShelfLifeOfUnlisted | comparador.js:257-259 | an unlisted code, or NaN, gets zero days |
| Expiry.FindShelfLife | comparador.js:257-258 | the table loop with `break` computes the shelf life |
| Expiry.ConstructorDayNumberPositive | comparador.js:263 | a constructed date is never before 01/01/0001 |
| Expiry.ValidadeEmpty | comparador.js:259-261 | the result is "" exactly when the code has no shelf life, the date is empty or it is not three numbers |
| Expiry.ValidadePorCodigo | comparador.js:248-266 | the method computes the calculator's specification |
| Expiry.ParseFormatted | comparador.js:260-262 | a rendered date splits back into its day, month and year |
| Expiry.ConstructorOfValid | comparador.js:263 | on a valid date the constructor only reads years below 100 in the 1900s |
| Expiry.ValidadeIsShift | comparador.js:259-265 | for a listed code and a valid date, the expiry is that date moved on by the code's shelf life |
| Expiry.ValidadeExample | comparador.js:248-266 | code 223 made on 01/01/2024 expires on 29/06/2024 |
| LabReport.FirstDigitFieldIsFirst | comparador.js:288-289 | the product code is the first non-empty all-digit piece, and "" means there is none |
| LabReport.ScanStable | comparador.js:279-299 | once a field has a value, later lines never change it |
| LabReport.ScanEmpty | comparador.js:276-300 | a field stays "" exactly when no line offers anything for it |
| LabReport.NotaOffered | comparador.js:279-282 | a line with four digits in a row offers an invoice number |
| LabReport.PlacaOffered | comparador.js:283-286 | a line holding a plate offers a plate |
| LabReport.DataOffered | comparador.js:292-295 | a line holding a `DD/MM/YYYY` date offers a date |
| LabReport.NotaScanned | comparador.js:276-282 | once any trimmed line holds four digits in a row, the report's invoice number is not empty |
| LabReport.ScanIsFirst | comparador.js:276-300 | the first line that offers a value decides the field |
| LabReport.ScanStep | comparador.js:276-300 | one more line keeps the field's value, or gives it the line's offer |
| LabReport.Fill | comparador.js:279-299 | each guarded block leaves a filled field alone and gives an empty one what the line offers |
| LabReport.FirstMatch | comparador.js:280-281 | `l.match(re)` gives the capture of the match at the first index where the expression matches; "" exactly when it matches at no index |
| LabReport.ScanLines | comparador.js:275-300 | the line loop fills every field from its first offering line |
| LabReport.ParseCsv | comparador.js:273-302 | the scanner computes its specification, and `validade` is the calculator on the scanned code and date |
| LabReport.DateLineGivesNota | comparador.js:279-282 | on a line holding only a date, the year is taken as the invoice number and the line as the date |
| Invoice.Tagged | comparador.js:178 | `getElementsByTagName(tag)` keeps every element named exactly `tag` and only those |
| Invoice.TagTextByName | comparador.js:178-179 | the first element named exactly `tag` decides, even when its text is blank |
| Invoice.TagTextByLocalName | comparador.js:180-183 | otherwise the first element whose local name equals `tag`, ignoring case, decides |
| Invoice.TagTextMissing | comparador.js:184 | with neither, the text is "" |
| Invoice.SafeTextShape | comparador.js:174 | `safeText` removes the surrounding white space of an element's text and nothing else |
| Invoice.FindTagText | comparador.js:176-185 | the two-phase lookup with early return computes its specification |
| Invoice.KeywordPlacaIsFirst | comparador.js:212-223 | stage 3 takes the first trailer element whose text holds a plate |
| Invoice.KeywordPlacaNone | comparador.js:212-223 | stage 3 finds nothing exactly when no element offers a plate |
| Invoice.ScanKeywordElements | comparador.js:214-222 | the loop guarded by `!placa` computes stage 3 |
| Invoice.ExtractPlaca | comparador.js:205-237 | the plate fallback chain computes its specification |
| Invoice.ParseXml | comparador.js:197-238 | the extraction computes its specification |
| Invoice.AliasChain | comparador.js:197-199 | each alias tag is consulted only when the names before it give "" |
| Invoice.SecondPlacaWins | comparador.js:206-208 | with two `placa` elements, a non-blank second one is the plate |
| Invoice.PlacaStages | comparador.js:205-237 | each plate stage runs only when every earlier one gave "" |
| Invoice.ElementPlacaShape | comparador.js:219-220 | a stage-3 plate is plate-shaped and upper-case |
| Invoice.InfCplPlacaShape | comparador.js:224-237 | a stage-4 plate (`InfCplPlaca`) is plate-shaped, perhaps with `/UF`, and upper-case |
| Invoice.SealsShape | comparador.js:201-203 | the invoice's seals are "" exactly when `infCpl` has no `Lacres:` match, and otherwise digits and dashes only |
| Invoice.CarretaLabelled | comparador.js:227-228 | `Carreta: ` followed by a plate gives that plate, upper-cased |
| Reconcile.StatusText | comparador.js:354-362 | the rendering of every row's status column: "ok", "erro" or "N/A", each word for exactly one status |
| Reconcile.StatusColumn | comparador.js:354-362 | each row's rendered status is the word the source's conditional expression picks for that row |
| Reconcile.CompararFiles | comparador.js:343-377 | extraction, in-place plate normalisation and row building compute the specification |
| Reconcile.FiveRows | comparador.js:356-363 | exactly five rows with the fixed labels, in order, each with an empty last column |
| Reconcile.NotaRow | comparador.js:358 | the second-invoice column is "N/A"; "ok" exactly when the normalised numbers agree; invoice 2 is never consulted |
| Reconcile.NotaRowLeadingZeros | comparador.js:358 | invoice numbers that differ only in leading zeros agree |
| Reconcile.WeightRows | comparador.js:359-360 | "ok" exactly when the weights agree within 0.001; the lab column is "N/A"; in each invoice column a zero weight shows as "N/A" and any other as that weight |
| Reconcile.PlacaRow | comparador.js:349-361 | "ok" exactly when the lab plate equals either invoice's, after normalising; all three plate columns show the normalised plates, or "N/A" |
| Reconcile.PlacaRowAllEmpty | comparador.js:361 | with no plate anywhere the row still reads "ok" |
| Reconcile.PlacaRowIgnoresDashAndState | comparador.js:349-361 | a plate with a dash and a state suffix matches the same plate written bare |
| Reconcile.CarretaFallback | comparador.js:224-228 | without a plate element or trailer element, a `Carreta:` label in `infCpl` supplies the plate shown in the row |
| Reconcile.CarretaFallbackExample | comparador.js:224-228 | `Carreta: DEF-5678` in `infCpl` shows as `DEF5678` |
| Reconcile.LacresRow | comparador.js:354 | the seal status (`LacresStatus`) is "N/A" without lab seals; "ok" when either invoice has the lab's seals; "erro" otherwise |
| Reconcile.ProdutoInfoFields | comparador.js:371-375 | the summary shows the report's code, date and expiry, or "N/A" |
| Reconcile.ProdutoValidade | comparador.js:301 | end to end, the expiry shown is the calculator's result on the report's code and date |

## Left out

- Reading files is not modelled: `FileReader`, `onload`/`onerror`, `readAsText`, the promises and `Promise.all` (comparador.js:190-193, 242-245, 268-272, 303-306, 336-341). The extractors work on text that has already been read, or on an element sequence. A missing invoice file gives a record with empty `nNF`, `pesoL`, `pesoB` and `placa` and no `lacres` key (comparador.js:191); a missing report file gives the all-empty record (comparador.js:270). Neither is modelled, and neither is the report's read-error record, which also lacks `lacres` (comparador.js:304). Every use of `lacres` in `compararFiles` gives the same result for a missing key as for "".
- XML parsing is not modelled: `DOMParser`, its error document and the `try`/`catch` fallback to an empty record (comparador.js:195-196, 239-241). A document is the sequence of its elements in document order, each with its tag name, local name and text content. An element's `localName` that is absent or empty is the same here.
- `normalizaPeso` (comparador.js:309-320) is the parameter `peso`, because it depends on `parseFloat` and `toFixed`. `floatEq` (comparador.js:187) compares reals, not IEEE doubles.
- Expiry.JsNumber: handles only blank text and runs of ASCII digits. Signs, decimals, exponents and hexadecimal forms are read as NaN rather than as JavaScript would read them. The product codes and date fields reaching it are always blank or digits, so it is exact on what the scanner produces.
- Numbers beyond 2^53 are exact integers here. Dates outside JavaScript's `Date` range (an Invalid Date) are not modelled, and neither are time of day or daylight saving.
- Case-insensitive matching, `toUpperCase` and `toLowerCase` act on ASCII letters only. This is exact here, for three reasons:
  - Under the `i` flag, a regular expression without the `u` flag never folds a non-ASCII character onto an ASCII one. Every capture that gets upper-cased is therefore ASCII.
  - `normalizaPlaca` keeps only ASCII letters and digits before it upper-cases.
  - Only two non-ASCII characters lower-case to something containing ASCII letters: the Kelvin sign (to `k`) and the dotted capital I (to `i` plus a combining dot). No compared tag or keyword contains a `k` or that pair.
- Strings are sequences of Unicode scalar values, not UTF-16 code units.
- The user interface and the debug export are not modelled: listeners, badges, table rendering, the debounce (comparador.js:380-462) and `window.__comparador` (comparador.js:465). They are presentation.
- The `lacresData` object (comparador.js:365-369) is never used, so it is not modelled.
- The definitions at the top of the file (comparador.js:5-163) are shadowed by the ones `compararFiles` calls, so they are not modelled.

=== FILE: calendar.dfy ===
/**
 * Proleptic Gregorian calendar arithmetic on day numbers.
 *
 * A JavaScript `Date` built from a year, a month and a day is, for the
 * purposes of the shelf-life calculator, nothing more than a count of days;
 * this module supplies that count (`DayNumber`, day 0 being 01/01/0001), its
 * inverse on valid dates (`FromDayNumber`) and the `DD/MM/YYYY` rendering used
 * by the pt-BR locale.
 */
module Calendar {
  import opened Text

  /** A calendar triple; only `ValidDate` ones name a real day. */
  datatype Date = Date(day: int, month: int, year: int)

  predicate IsLeapYear(y: int) {
    y % 4 == 0 && (y % 100 != 0 || y % 400 == 0)
  }

  function DaysInMonth(m: int, y: int): (n: int)
    requires 1 <= m <= 12
    ensures 28 <= n <= 31
    ensures n == 29 <==> m == 2 && IsLeapYear(y)
  {
    if m == 2 then (if IsLeapYear(y) then 29 else 28)
    else if m == 4 || m == 6 || m == 9 || m == 11 then 30
    else 31
  }

  function YearLength(y: int): int {
    if IsLeapYear(y) then 366 else 365
  }

  predicate ValidDate(d: Date) {
    d.year >= 1 && 1 <= d.month <= 12 && 1 <= d.day <= DaysInMonth(d.month, d.year)
  }

  /** Days from 01/01/0001 to 01/01 of year `y` (floor division, as the calendar is proleptic). */
  function DaysBeforeYear(y: int): int {
    365 * (y - 1) + (y - 1) / 4 - (y - 1) / 100 + (y - 1) / 400
  }

  /** Days from 01/01 of year `y` to the first day of month `m`; month 13 is the next 01/01. */
  function DaysBeforeMonth(m: int, y: int): (n: int)
    requires 1 <= m <= 13
  {
    var leap := if m > 2 && IsLeapYear(y) then 1 else 0;
    (match m
      case 1 => 0 case 2 => 31 case 3 => 59 case 4 => 90 case 5 => 120 case 6 => 151
      case 7 => 181 case 8 => 212 case 9 => 243 case 10 => 273 case 11 => 304 case 12 => 334
      case _ => 365) + leap
  }

  /**
   * The day number of a date whose month is in range; the day of the month
   * may be anything, days before the first or after the last simply count on
   * from the first of the month, as JavaScript's `MakeDay` does.
   */
  function DayNumber(d: Date): int
    requires 1 <= d.month <= 12
  {
    DaysBeforeYear(d.year) + DaysBeforeMonth(d.month, d.year) + d.day - 1
  }

  lemma MonthStep(m: int, y: int)
    requires 1 <= m <= 12
    ensures DaysBeforeMonth(m + 1, y) == DaysBeforeMonth(m, y) + DaysInMonth(m, y)
    ensures DaysBeforeMonth(13, y) == YearLength(y)
  {
  }

  lemma {:induction false} YearStep(y: int)
    ensures DaysBeforeYear(y + 1) == DaysBeforeYear(y) + YearLength(y)
  {
    DivStep(y, 4);
    DivStep(y, 100);
    DivStep(y, 400);
    Multiples(y);
  }

  /** Multiples of 400 are multiples of 100, and those are multiples of 4. */
  lemma Multiples(y: int)
    ensures y % 400 == 0 ==> y % 100 == 0
    ensures y % 100 == 0 ==> y % 4 == 0
  {
    if y % 400 == 0 {
      var k := y / 400;
      assert y == 400 * k;
      var m := 4 * k;
      assert y == 100 * m;
    }
    if y % 100 == 0 {
      var k := y / 100;
      assert y == 100 * k;
      var m := 25 * k;
      assert y == 4 * m;
    }
  }

  /** Moving from `y - 1` to `y` adds one multiple of `n` exactly when `n` divides `y`. */
  lemma DivStep(y: int, n: int)
    requires n == 4 || n == 100 || n == 400
    ensures y / n == (y - 1) / n + (if y % n == 0 then 1 else 0)
  {
    if n == 4 {
      assert y / 4 == (y - 1) / 4 + (if y % 4 == 0 then 1 else 0);
    } else if n == 100 {
      assert y / 100 == (y - 1) / 100 + (if y % 100 == 0 then 1 else 0);
    } else {
      assert y / 400 == (y - 1) / 400 + (if y % 400 == 0 then 1 else 0);
    }
  }

  lemma {:induction false} YearsApart(a: int, b: int)
    requires a <= b
    ensures DaysBeforeYear(a) + 365 * (b - a) <= DaysBeforeYear(b)
    decreases b - a
  {
    if a < b {
      YearsApart(a, b - 1);
      YearStep(b - 1);
    }
  }

  /** A valid date lies within its own year. */
  lemma WithinYear(d: Date)
    requires ValidDate(d)
    ensures DaysBeforeYear(d.year) <= DayNumber(d) < DaysBeforeYear(d.year + 1)
  {
    YearStep(d.year);
    MonthStep(d.month, d.year);
    assert DaysBeforeMonth(d.month + 1, d.year) <= DaysBeforeMonth(13, d.year);
  }

  lemma DayNumberOfValid(d: Date)
    requires ValidDate(d)
    ensures DayNumber(d) >= 0
  {
    YearsApart(1, d.year);
    WithinYear(d);
  }

  /** Two valid dates with the same day number are the same date. */
  lemma DayNumberInjective(a: Date, b: Date)
    requires ValidDate(a) && ValidDate(b) && DayNumber(a) == DayNumber(b)
    ensures a == b
  {
    SameYear(a, b);
    SameYear(b, a);
    SameMonth(a, b);
  }

  lemma SameYear(a: Date, b: Date)
    requires ValidDate(a) && ValidDate(b) && DayNumber(a) <= DayNumber(b)
    ensures a.year <= b.year
  {
    WithinYear(a);
    WithinYear(b);
    if b.year < a.year {
      YearsApart(b.year + 1, a.year);
    }
  }

  lemma SameMonth(a: Date, b: Date)
    requires ValidDate(a) && ValidDate(b) && a.year == b.year && DayNumber(a) == DayNumber(b)
    ensures a.month == b.month
  {
    MonthStep(a.month, a.year);
    MonthStep(b.month, b.year);
  }

  /** The first day of the month after `d`'s. */
  function NextMonth(d: Date): (r: Date)
    requires ValidDate(d)
    ensures ValidDate(r) && r.day == 1
    ensures DayNumber(r) == DayNumber(d) + (DaysInMonth(d.month, d.year) - d.day) + 1
  {
    MonthStep(d.month, d.year);
    if d.month == 12 then
      YearStep(d.year);
      Date(1, 1, d.year + 1)
    else
      Date(1, d.month + 1, d.year)
  }

  /** `k` days after `d`, walking month by month. */
  function AddDays(d: Date, k: nat): (r: Date)
    requires ValidDate(d)
    ensures ValidDate(r) && r.year >= d.year
    ensures DayNumber(r) == DayNumber(d) + k
    decreases k
  {
    var left := DaysInMonth(d.month, d.year) - d.day;
    if k <= left then Date(d.day + k, d.month, d.year)
    else AddDays(NextMonth(d), k - left - 1)
  }

  /** The valid date carrying day number `t`. */
  function FromDayNumber(t: nat): (r: Date)
    ensures ValidDate(r) && DayNumber(r) == t
  {
    AddDays(Date(1, 1, 1), t)
  }

  /** `FromDayNumber` inverts `DayNumber` on valid dates. */
  lemma FromDayNumberOfValid(d: Date)
    requires ValidDate(d)
    ensures DayNumber(d) >= 0 && FromDayNumber(DayNumber(d)) == d
  {
    DayNumberOfValid(d);
    DayNumberInjective(FromDayNumber(DayNumber(d)), d);
  }

  /** Shifting by `k` days is the same whether done by walking or on the day number. */
  lemma AddDaysByNumber(d: Date, k: nat)
    requires ValidDate(d)
    ensures DayNumber(d) + k >= 0 && FromDayNumber(DayNumber(d) + k) == AddDays(d, k)
  {
    DayNumberOfValid(d);
    DayNumberInjective(FromDayNumber(DayNumber(d) + k), AddDays(d, k));
  }

  /** Two-digit, zero-padded rendering of a day or a month. */
  function Pad2(n: nat): (r: string)
    requires n < 100
    ensures |r| == 2 && AllDigits(r) && DecimalValue(r) == n
  {
    var r := [DigitChar(n / 10), DigitChar(n % 10)];
    assert r[..1] == [r[0]] && r[..1][..0] == [];
    assert DecimalValue(r[..1]) == DigitValue(r[0]) == n / 10;
    assert DecimalValue(r) == 10 * (n / 10) + n % 10;
    r
  }

  /** `toLocaleDateString('pt-BR')`: two-digit day and month, the year in plain decimal. */
  function FormatPtBr(d: Date): (r: string)
    requires ValidDate(d)
  {
    Pad2(d.day) + "/" + Pad2(d.month) + "/" + NatToString(d.year)
  }

  /** The rendering is three slash-separated digit fields: day, month, year. */
  lemma FormatPtBrFields(d: Date)
    requires ValidDate(d)
    ensures Split(FormatPtBr(d), {'/'}) == [Pad2(d.day), Pad2(d.month), NatToString(d.year)]
    ensures AllDigits(NatToString(d.year)) && DecimalValue(NatToString(d.year)) == d.year
  {
    var a, b, c := Pad2(d.day), Pad2(d.month), NatToString(d.year);
    DecimalOfNatToString(d.year);
    SplitNoSeparator(a, {'/'});
    SplitNoSeparator(b, {'/'});
    SplitNoSeparator(c, {'/'});
    assert FormatPtBr(d) == a + ['/'] + (b + ['/'] + c);
    SplitAtSeparator(a, '/', b + ['/'] + c, {'/'});
    SplitAtSeparator(b, '/', c, {'/'});
  }
}

=== FILE: expiry.dfy ===
/**
 * The shelf-life calculator `validadePorCodigo`: a product code selects a
 * number of days from a fixed table, and the expiry date is the production
 * date (`DD/MM/YYYY`) plus that many days, rendered the pt-BR way.
 */
module Expiry {
  import opened Wrappers
  import opened Text
  import opened Calendar

  /**
   * JavaScript `Number` on a string, for the forms the calculator meets:
   * blank text is 0, a run of ASCII digits (after trimming) is its value,
   * anything else is NaN (`None`).
   */
  function JsNumber(s: string): Option<nat> {
    var t := Trim(s);
    if t == "" then Some(0)
    else if AllDigits(t) then Some(DecimalValue(t))
    else None
  }

  /** A digit string reads back as its decimal value. */
  lemma JsNumberOfDigits(s: string)
    requires AllDigits(s) && s != ""
    ensures JsNumber(s) == Some(DecimalValue(s))
  {
    DigitsHaveNoSpace(s);
    TrimOfNoSpace(s);
  }

  lemma DigitsHaveNoSpace(s: string)
    requires AllDigits(s)
    ensures NoSpace(s)
  {
  }

  /** Leading zeros in a code are ignored. */
  lemma JsNumberLeadingZero(s: string)
    requires AllDigits(s) && s != ""
    ensures JsNumber("0" + s) == JsNumber(s)
  {
    DecimalValueLeadingZero(s);
    JsNumberOfDigits(s);
    JsNumberOfDigits("0" + s);
  }

  /** The table from shelf life in days to product codes, in JavaScript's key enumeration order. */
  const Prazos: seq<(nat, seq<nat>)> := [
    (7, [104, 120]),
    (15, [106, 122]),
    (60, [250, 290]),
    (180, [223, 201]),
    (365, [300, 304, 305, 306, 307, 308])
  ]

  /** The days of the first table entry from `i` on that lists `code`; 0 when none does. */
  function ShelfLifeFrom(i: nat, code: nat): nat
    requires i <= |Prazos|
    decreases |Prazos| - i
  {
    if i == |Prazos| then 0
    else if code in Prazos[i].1 then Prazos[i].0
    else ShelfLifeFrom(i + 1, code)
  }

  /** The shelf life selected by a code; NaN selects nothing. */
  function ShelfLife(code: Option<nat>): nat {
    if code.None? then 0 else ShelfLifeFrom(0, code.value)
  }

  /** No code appears under two shelf lives. */
  lemma PrazosDisjoint(i: nat, j: nat, code: nat)
    requires i < |Prazos| && j < |Prazos| && i != j
    ensures !(code in Prazos[i].1 && code in Prazos[j].1)
  {
  }

  lemma {:induction false} ShelfLifeFromListed(i: nat, j: nat, code: nat)
    requires i <= j < |Prazos| && code in Prazos[j].1
    ensures ShelfLifeFrom(i, code) == Prazos[j].0
    decreases j - i
  {
    if i < j {
      PrazosDisjoint(i, j, code);
      ShelfLifeFromListed(i + 1, j, code);
    }
  }

  lemma {:induction false} ShelfLifeFromUnlisted(i: nat, code: nat)
    requires i <= |Prazos|
    requires forall j :: i <= j < |Prazos| ==> code !in Prazos[j].1
    ensures ShelfLifeFrom(i, code) == 0
    decreases |Prazos| - i
  {
    if i < |Prazos| {
      ShelfLifeFromUnlisted(i + 1, code);
    }
  }

  /** A listed code gets the days of the entry that lists it, whatever the table order. */
  lemma ShelfLifeOfListed(code: nat, j: nat)
    requires j < |Prazos| && code in Prazos[j].1
    ensures ShelfLife(Some(code)) == Prazos[j].0 && ShelfLife(Some(code)) != 0
  {
    ShelfLifeFromListed(0, j, code);
  }

  /** An unlisted code, or NaN, gets no shelf life. */
  lemma ShelfLifeOfUnlisted(code: Option<nat>)
    requires code.Some? ==> forall j :: 0 <= j < |Prazos| ==> code.value !in Prazos[j].1
    ensures ShelfLife(code) == 0
  {
    if code.Some? {
      ShelfLifeFromUnlisted(0, code.value);
    }
  }

  /** `dataProducao.split('/').map(Number)`, accepted only as three numbers. */
  function ParseDate(data: string): Option<(nat, nat, nat)> {
    var parts := Split(data, {'/'});
    if |parts| != 3 then None
    else
      var dia, mes, ano := JsNumber(parts[0]), JsNumber(parts[1]), JsNumber(parts[2]);
      if dia.None? || mes.None? || ano.None? then None
      else Some((dia.value, mes.value, ano.value))
  }

  /** The year the `Date` constructor actually uses for a written year. */
  function ConstructorYear(ano: nat): nat {
    if ano <= 99 then 1900 + ano else ano
  }

  /**
   * The day number of `new Date(ano, mes - 1, dia)`: years 0 to 99 stand for
   * 1900 to 1999, and months and days outside their range roll over into the
   * neighbouring months and years.
   */
  function ConstructorDayNumber(dia: nat, mes: nat, ano: nat): int {
    var m := mes - 1;
    DayNumber(Date(dia, m % 12 + 1, ConstructorYear(ano) + m / 12))
  }

  /** Whatever the parts, the constructed date is well after 01/01/0001. */
  lemma ConstructorDayNumberPositive(dia: nat, mes: nat, ano: nat)
    ensures ConstructorDayNumber(dia, mes, ano) >= 0
  {
    var m := mes - 1;
    assert ConstructorYear(ano) + m / 12 >= 99;
    YearsApart(1, ConstructorYear(ano) + m / 12);
  }

  /** The specification of `validadePorCodigo`. */
  function Validade(codigo: string, dataProducao: string): string {
    var dias := ShelfLife(JsNumber(codigo));
    if dias == 0 || dataProducao == "" then ""
    else
      match ParseDate(dataProducao)
      case None => ""
      case Some((dia, mes, ano)) => Expire(dia, mes, ano, dias)
  }

  /** `new Date(ano, mes - 1, dia)` moved `dias` days on, in pt-BR form. */
  function Expire(dia: nat, mes: nat, ano: nat, dias: nat): string {
    ConstructorDayNumberPositive(dia, mes, ano);
    FormatPtBr(FromDayNumber(ConstructorDayNumber(dia, mes, ano) + dias))
  }

  /** The calculator gives "" exactly when the code has no shelf life, the date is empty or it is not three numbers. */
  lemma ValidadeEmpty(codigo: string, dataProducao: string)
    ensures Validade(codigo, dataProducao) == ""
            <==> ShelfLife(JsNumber(codigo)) == 0 || dataProducao == "" || ParseDate(dataProducao).None?
  {
  }

  /** The table scan of `validadePorCodigo`: the first entry listing the code wins. */
  method FindShelfLife(code: Option<nat>) returns (dias: nat)
    ensures dias == ShelfLife(code)
  {
    dias := 0;
    var i := 0;
    while i < |Prazos|
      invariant 0 <= i <= |Prazos|
      invariant code.Some? ==> ShelfLifeFrom(i, code.value) == ShelfLife(code)
      invariant code.None? ==> ShelfLife(code) == 0
      invariant dias == 0
    {
      if code.Some? && code.value in Prazos[i].1 {
        dias := Prazos[i].0;
        break;
      }
      i := i + 1;
    }
  }

  /** `validadePorCodigo`: find the shelf life, check the date, build it and shift it. */
  method ValidadePorCodigo(codigo: string, dataProducao: string) returns (r: string)
    ensures r == Validade(codigo, dataProducao)
  {
    var dias := FindShelfLife(JsNumber(codigo));
    if dias == 0 || dataProducao == "" {
      return "";
    }
    var parts := Split(dataProducao, {'/'});
    if |parts| != 3 {
      assert ParseDate(dataProducao).None?;
      return "";
    }
    var dia, mes, ano := JsNumber(parts[0]), JsNumber(parts[1]), JsNumber(parts[2]);
    if dia.None? || mes.None? || ano.None? {
      assert ParseDate(dataProducao).None?;
      return "";
    }
    assert ParseDate(dataProducao) == Some((dia.value, mes.value, ano.value));
    ValidadeOfParsed(codigo, dataProducao, dia.value, mes.value, ano.value);
    var t := ConstructorDayNumber(dia.value, mes.value, ano.value);
    ConstructorDayNumberPositive(dia.value, mes.value, ano.value);
    t := t + dias;
    r := FormatPtBr(FromDayNumber(t));
  }

  /**
   * For a production date written the way the calculator writes dates, and
   * a listed code, the expiry is that date (with a year below 100 read in
   * the 1900s) moved forward by the code's shelf life.
   */
  lemma ValidadeIsShift(codigo: string, d: Date, j: nat)
    requires ValidDate(d) && j < |Prazos|
    requires JsNumber(codigo).Some? && JsNumber(codigo).value in Prazos[j].1
    ensures var e := Date(d.day, d.month, ConstructorYear(d.year));
            ValidDate(e) && Validade(codigo, FormatPtBr(d)) == FormatPtBr(AddDays(e, Prazos[j].0))
  {
    ShelfLifeOfListed(JsNumber(codigo).value, j);
    ParseFormatted(d);
    ValidadeOfParsed(codigo, FormatPtBr(d), d.day, d.month, d.year);
    ExpireOfValid(d, Prazos[j].0);
  }

  /** A date that parses into three numbers expires by `Expire`. */
  lemma ValidadeOfParsed(codigo: string, data: string, dia: nat, mes: nat, ano: nat)
    requires ShelfLife(JsNumber(codigo)) != 0 && data != ""
    requires ParseDate(data) == Some((dia, mes, ano))
    ensures Validade(codigo, data) == Expire(dia, mes, ano, ShelfLife(JsNumber(codigo)))
  {
  }

  /** On a valid date, `Expire` moves the date (its year read by the constructor) on by `dias` days. */
  lemma ExpireOfValid(d: Date, dias: nat)
    requires ValidDate(d)
    ensures var e := Date(d.day, d.month, ConstructorYear(d.year));
            ValidDate(e) && Expire(d.day, d.month, d.year, dias) == FormatPtBr(AddDays(e, dias))
  {
    var e := Date(d.day, d.month, ConstructorYear(d.year));
    ConstructorOfValid(d);
    AddDaysByNumber(e, dias);
  }

  /** Reading a rendered date back gives its day, month and year. */
  lemma ParseFormatted(d: Date)
    requires ValidDate(d)
    ensures FormatPtBr(d) != "" && ParseDate(FormatPtBr(d)) == Some((d.day, d.month, d.year))
  {
    FormatPtBrFields(d);
    JsNumberOfDigits(Pad2(d.day));
    JsNumberOfDigits(Pad2(d.month));
    JsNumberOfDigits(NatToString(d.year));
  }

  lemma ConstructorOfValid(d: Date)
    requires ValidDate(d)
    ensures var e := Date(d.day, d.month, ConstructorYear(d.year));
            ValidDate(e) && ConstructorDayNumber(d.day, d.month, d.year) == DayNumber(e)
  {
    assert (d.month - 1) % 12 + 1 == d.month && (d.month - 1) / 12 == 0;
  }

  /** Code 223 keeps 180 days: made on 01/01/2024, it expires on 29/06/2024 (2024 is a leap year). */
  lemma ValidadeExample(codigo: string, made: string, expires: string)
    requires codigo == "223" && made == "01/01/2024" && expires == "29/06/2024"
    ensures Validade(codigo, made) == expires
  {
    Code223(codigo);
    ShiftExample(Date(1, 1, 2024), Date(29, 6, 2024), made, expires);
    ValidadeIsShift(codigo, Date(1, 1, 2024), 3);
  }

  lemma ShiftExample(d: Date, e: Date, made: string, expires: string)
    requires d == Date(1, 1, 2024) && e == Date(29, 6, 2024)
    requires made == "01/01/2024" && expires == "29/06/2024"
    ensures ValidDate(d) && FormatPtBr(d) == made
    ensures ValidDate(e) && AddDays(d, 180) == e && FormatPtBr(e) == expires
  {
    Rendered(d, made);
    assert DayNumber(e) == DayNumber(d) + 180;
    DayNumberInjective(AddDays(d, 180), e);
    Rendered(e, expires);
  }

  lemma Code223(codigo: string)
    requires codigo == "223"
    ensures JsNumber(codigo) == Some(223)
  {
    assert codigo[..2] == "22" && codigo[..2][..1] == "2" && codigo[..2][..1][..0] == "";
    assert DecimalValue("2") == 2;
    assert DecimalValue("22") == 22;
    assert AllDigits(codigo) && DecimalValue(codigo) == 223;
    JsNumberOfDigits(codigo);
  }

  lemma Rendered(d: Date, s: string)
    requires (d == Date(1, 1, 2024) && s == "01/01/2024") || (d == Date(29, 6, 2024) && s == "29/06/2024")
    ensures ValidDate(d) && FormatPtBr(d) == s
  {
    assert NatToString(2024) == "2024" by {
      assert NatToString(2) == "2";
      assert NatToString(20) == "20";
      assert NatToString(202) == "202";
    }
  }
}

=== FILE: invoice.dfy ===
/**
 * The invoice (NF-e) extractor: the body of `parseXML` once the document is
 * parsed, over the document's elements in document order. Each element
 * carries its qualified tag name, its local name (the name without a
 * namespace prefix; "" when it has none) and its text content.
 */
module Invoice {
  import opened Wrappers
  import opened Text
  import opened Patterns

  datatype Element = Element(tagName: string, localName: string, textContent: string)

  /** `getElementsByTagName('*')`: every element, in document order. */
  type Document = seq<Element>

  datatype NotaFiscal = NotaFiscal(nNF: string, pesoL: string, pesoB: string, placa: string, lacres: string)

  /** `safeText`: the trimmed text of an element. */
  function SafeText(e: Element): string {
    Trim(e.textContent)
  }

  /** The text of an element with only its surrounding white space removed. */
  lemma SafeTextShape(e: Element)
    ensures var r := SafeText(e);
            r == [] || (!IsSpace(r[0]) && !IsSpace(r[|r| - 1]))
    ensures exists a, b :: && 0 <= a <= b <= |e.textContent| && SafeText(e) == e.textContent[a..b]
                           && (forall k :: 0 <= k < a ==> IsSpace(e.textContent[k]))
                           && (forall k :: b <= k < |e.textContent| ==> IsSpace(e.textContent[k]))
  {
    var a, b := TrimCuts(e.textContent);
  }

  /** `getElementsByTagName(tag)`: the elements whose qualified name is exactly `tag`. */
  function Tagged(doc: Document, tag: string): (r: seq<Element>)
    ensures forall k :: 0 <= k < |r| ==> r[k].tagName == tag
    ensures forall k :: 0 <= k < |doc| && doc[k].tagName == tag ==> doc[k] in r
    ensures |r| <= |doc|
  {
    if doc == [] then []
    else (if doc[0].tagName == tag then [doc[0]] else []) + Tagged(doc[1..], tag)
  }

  /** The element's local name is `tag`, compared after lower-casing both. */
  predicate LocalNameIs(e: Element, tag: string) {
    e.localName != "" && LowerStr(e.localName) == LowerStr(tag)
  }

  /** The trimmed text of the first element whose local name is `tag`; "" when none. */
  function LocalText(doc: Document, tag: string): string {
    if doc == [] then ""
    else if LocalNameIs(doc[0], tag) then SafeText(doc[0])
    else LocalText(doc[1..], tag)
  }

  /** The specification of `findTagText`. */
  function TagText(doc: Document, tag: string): string {
    var byName := Tagged(doc, tag);
    if |byName| > 0 then SafeText(byName[0]) else LocalText(doc, tag)
  }

  lemma {:induction false} TaggedFirst(doc: Document, tag: string, k: nat)
    requires k < |doc| && doc[k].tagName == tag
    requires forall j :: 0 <= j < k ==> doc[j].tagName != tag
    ensures |Tagged(doc, tag)| > 0 && Tagged(doc, tag)[0] == doc[k]
  {
    if k > 0 {
      TaggedFirst(doc[1..], tag, k - 1);
    }
  }

  lemma {:induction false} TaggedNone(doc: Document, tag: string)
    requires forall j :: 0 <= j < |doc| ==> doc[j].tagName != tag
    ensures Tagged(doc, tag) == []
  {
    if doc != [] {
      TaggedNone(doc[1..], tag);
    }
  }

  lemma {:induction false} LocalTextFirst(doc: Document, tag: string, k: nat)
    requires k < |doc| && LocalNameIs(doc[k], tag)
    requires forall j :: 0 <= j < k ==> !LocalNameIs(doc[j], tag)
    ensures LocalText(doc, tag) == SafeText(doc[k])
  {
    if k > 0 {
      LocalTextFirst(doc[1..], tag, k - 1);
    }
  }

  lemma {:induction false} LocalTextNone(doc: Document, tag: string)
    requires forall j :: 0 <= j < |doc| ==> !LocalNameIs(doc[j], tag)
    ensures LocalText(doc, tag) == ""
  {
    if doc != [] {
      LocalTextNone(doc[1..], tag);
    }
  }

  /** An element named exactly `tag` wins, the first one, even when its text is blank. */
  lemma TagTextByName(doc: Document, tag: string, k: nat)
    requires k < |doc| && doc[k].tagName == tag
    requires forall j :: 0 <= j < k ==> doc[j].tagName != tag
    ensures TagText(doc, tag) == Trim(doc[k].textContent)
  {
    TaggedFirst(doc, tag, k);
  }

  /** Without such an element, the first element with that local name, ignoring case, is used. */
  lemma TagTextByLocalName(doc: Document, tag: string, k: nat)
    requires forall j :: 0 <= j < |doc| ==> doc[j].tagName != tag
    requires k < |doc| && LocalNameIs(doc[k], tag)
    requires forall j :: 0 <= j < k ==> !LocalNameIs(doc[j], tag)
    ensures TagText(doc, tag) == Trim(doc[k].textContent)
  {
    TaggedNone(doc, tag);
    LocalTextFirst(doc, tag, k);
  }

  /** With neither, the text is "". */
  lemma TagTextMissing(doc: Document, tag: string)
    requires forall j :: 0 <= j < |doc| ==> doc[j].tagName != tag && !LocalNameIs(doc[j], tag)
    ensures TagText(doc, tag) == ""
  {
    TaggedNone(doc, tag);
    LocalTextNone(doc, tag);
  }

  /** `findTagText`: look the tag up by name, else walk every element comparing local names. */
  method FindTagText(doc: Document, tag: string) returns (r: string)
    ensures r == TagText(doc, tag)
  {
    var byName := Tagged(doc, tag);
    if |byName| > 0 {
      return SafeText(byName[0]);
    }
    var i := 0;
    while i < |doc|
      invariant 0 <= i <= |doc|
      invariant LocalText(doc[i..], tag) == LocalText(doc, tag)
    {
      if doc[i].localName != "" && LowerStr(doc[i].localName) == LowerStr(tag) {
        return SafeText(doc[i]);
      }
      assert doc[i..][1..] == doc[i + 1..];
      i := i + 1;
    }
    return "";
  }

  // ---------------------------------------------------------------------
  // The plate, stage by stage

  /** Stages 1 and 2: the second `placa` element when there are several, else `findTagText('placa')`. */
  function TagPlaca(doc: Document): string {
    var placas := Tagged(doc, "placa");
    if |placas| > 1 then Trim(placas[1].textContent) else TagText(doc, "placa")
  }

  /** The local-name fragments that mark a trailer element. */
  const Keywords: seq<string> := ["carreta", "reboque", "trailer", "reboques", "carroceria"]

  predicate HasKeyword(ln: string) {
    exists k :: 0 <= k < |Keywords| && Contains(ln, Keywords[k])
  }

  /** What an element offers in stage 3: the upper-cased first plate in the text of a trailer element. */
  function ElementPlaca(e: Element): string {
    if HasKeyword(LowerStr(e.localName)) then UpperStr(FirstCapture(Plate, e.textContent)) else ""
  }

  /** Stage 3: the first element that offers a plate. */
  function KeywordPlaca(doc: Document): string {
    if doc == [] then ""
    else if ElementPlaca(doc[0]) != "" then ElementPlaca(doc[0])
    else KeywordPlaca(doc[1..])
  }

  /** Stage 3 takes the first element offering a plate; it finds nothing exactly when none does. */
  lemma {:induction false} KeywordPlacaIsFirst(doc: Document, k: nat)
    requires k < |doc| && ElementPlaca(doc[k]) != ""
    requires forall j :: 0 <= j < k ==> ElementPlaca(doc[j]) == ""
    ensures KeywordPlaca(doc) == ElementPlaca(doc[k])
  {
    if k > 0 {
      KeywordPlacaIsFirst(doc[1..], k - 1);
    }
  }

  lemma {:induction false} KeywordPlacaNone(doc: Document)
    ensures KeywordPlaca(doc) == "" <==> forall j :: 0 <= j < |doc| ==> ElementPlaca(doc[j]) == ""
  {
    if doc != [] {
      KeywordPlacaNone(doc[1..]);
      assert forall j :: 1 <= j < |doc| ==> doc[1..][j - 1] == doc[j];
    }
  }

  /** The capture of the leftmost match of `p`, upper-cased; "" when there is none. */
  function UpperCapture(p: Pattern, s: string): string {
    UpperStr(FirstCapture(p, s))
  }

  /** Stage 4, over the `infCpl` text: the `Carreta` label, then the `Reboque` label, then the last plate. */
  function InfCplPlaca(infCpl: string): string {
    var carreta := UpperCapture(CarretaLabel, infCpl);
    if carreta != "" then carreta
    else
      var reboque := UpperCapture(ReboqueLabel, infCpl);
      if reboque != "" then reboque
      else
        var all := AllMatches(PlateUf, infCpl, 0);
        if |all| > 0 then UpperStr(all[|all| - 1].capture) else ""
  }

  /** The seals: group 1 of `Lacres?:\s*([0-9-]+)` in the `infCpl` text, trimmed; "" without a match. */
  function Seals(doc: Document): string {
    Trim(FirstCapture(SealLabel, Or(TagText(doc, "infCpl"), "")))
  }

  /** The plate: the first stage that finds one. */
  function Placa(doc: Document): string {
    Or(Or(TagPlaca(doc), KeywordPlaca(doc)), InfCplPlaca(Or(TagText(doc, "infCpl"), "")))
  }

  /** The specification of the extraction in `parseXML`. */
  function ParseNF(doc: Document): NotaFiscal {
    var nNF := Or(Or(TagText(doc, "nNF"), TagText(doc, "NFNumero")), TagText(doc, "numero"));
    var pesoL := Or(Or(TagText(doc, "pesoL"), TagText(doc, "pesoLiquido")), "");
    var pesoB := Or(Or(TagText(doc, "pesoB"), TagText(doc, "pesoBruto")), "");
    NotaFiscal(nNF, pesoL, pesoB, Placa(doc), Seals(doc))
  }

  /** The stage-3 loop: stop at the first trailer element whose text holds a plate. */
  method ScanKeywordElements(doc: Document) returns (placa: string)
    ensures placa == KeywordPlaca(doc)
  {
    placa := "";
    var i := 0;
    while i < |doc| && placa == ""
      invariant 0 <= i <= |doc|
      invariant placa == "" ==> KeywordPlaca(doc[i..]) == KeywordPlaca(doc)
      invariant placa != "" ==> placa == KeywordPlaca(doc)
    {
      var ln := LowerStr(doc[i].localName);
      if HasKeyword(ln) {
        var m := Search(Plate, doc[i].textContent, 0);
        if m.Some? {
          placa := UpperStr(m.value.capture);
        }
      }
      assert doc[i..][1..] == doc[i + 1..];
      i := i + 1;
    }
    if placa == "" {
      assert doc[i..] == [];
    }
  }

  /** The plate fallback chain of `parseXML`. */
  method ExtractPlaca(doc: Document) returns (placa: string)
    ensures placa == Placa(doc)
  {
    var placas := Tagged(doc, "placa");
    if |placas| > 1 {
      placa := Trim(placas[1].textContent);
    } else {
      placa := FindTagText(doc, "placa");
    }
    if placa == "" {
      placa := ScanKeywordElements(doc);
    }
    if placa == "" {
      var infCpl := FindTagText(doc, "infCpl");
      placa := InfCplPlaca(infCpl);
    }
  }

  /** `parseXML` once the document is parsed: the alias chains, the seals and the plate fallback. */
  method ParseXml(doc: Document) returns (nf: NotaFiscal)
    ensures nf == ParseNF(doc)
  {
    var nNF := FindTagText(doc, "nNF");
    if nNF == "" { nNF := FindTagText(doc, "NFNumero"); }
    if nNF == "" { nNF := FindTagText(doc, "numero"); }
    var pesoL := FindTagText(doc, "pesoL");
    if pesoL == "" { pesoL := FindTagText(doc, "pesoLiquido"); }
    var pesoB := FindTagText(doc, "pesoB");
    if pesoB == "" { pesoB := FindTagText(doc, "pesoBruto"); }
    var lacres := FindTagText(doc, "infCpl");
    var lacresMatch := Search(SealLabel, lacres, 0);
    lacres := if lacresMatch.Some? then Trim(lacresMatch.value.capture) else "";
    var placa := ExtractPlaca(doc);
    nf := NotaFiscal(nNF, pesoL, pesoB, placa, lacres);
  }

  // ---------------------------------------------------------------------
  // Properties of the extraction

  /** Each alias is consulted only when the names before it give "". */
  lemma AliasChain(doc: Document)
    ensures var nf := ParseNF(doc);
            && (TagText(doc, "nNF") != "" ==> nf.nNF == TagText(doc, "nNF"))
            && (TagText(doc, "nNF") == "" && TagText(doc, "NFNumero") != "" ==> nf.nNF == TagText(doc, "NFNumero"))
            && (TagText(doc, "nNF") == "" && TagText(doc, "NFNumero") == "" ==> nf.nNF == TagText(doc, "numero"))
            && (nf.pesoL == if TagText(doc, "pesoL") != "" then TagText(doc, "pesoL") else TagText(doc, "pesoLiquido"))
            && (nf.pesoB == if TagText(doc, "pesoB") != "" then TagText(doc, "pesoB") else TagText(doc, "pesoBruto"))
  {
  }

  /** With two or more `placa` elements, a non-blank second one is the plate, whatever else the document holds. */
  lemma SecondPlacaWins(doc: Document, i: nat, k: nat)
    requires i < k < |doc| && doc[i].tagName == "placa" && doc[k].tagName == "placa"
    requires forall j :: 0 <= j < k && j != i ==> doc[j].tagName != "placa"
    requires Trim(doc[k].textContent) != ""
    ensures ParseNF(doc).placa == Trim(doc[k].textContent)
  {
    SecondTagged(doc, "placa", i, k);
  }

  lemma {:induction false} SecondTagged(doc: Document, tag: string, i: nat, k: nat)
    requires i < k < |doc| && doc[i].tagName == tag && doc[k].tagName == tag
    requires forall j :: 0 <= j < k && j != i ==> doc[j].tagName != tag
    ensures |Tagged(doc, tag)| > 1 && Tagged(doc, tag)[1] == doc[k]
  {
    if i > 0 {
      SecondTagged(doc[1..], tag, i - 1, k - 1);
    } else {
      TaggedFirst(doc[1..], tag, k - 1);
    }
  }

  /** Each stage runs only when every earlier one produced "". */
  lemma PlacaStages(doc: Document)
    ensures var placa := ParseNF(doc).placa;
            && (TagPlaca(doc) != "" ==> placa == TagPlaca(doc))
            && (TagPlaca(doc) == "" && KeywordPlaca(doc) != "" ==> placa == KeywordPlaca(doc))
            && (TagPlaca(doc) == "" && KeywordPlaca(doc) == "" ==> placa == InfCplPlaca(TagText(doc, "infCpl")))
  {
  }

  /** A plate found in stage 3 is plate-shaped and upper-case. */
  lemma ElementPlacaShape(e: Element)
    ensures var r := ElementPlaca(e);
            r == "" || (IsPlate(r) && UpperStr(r) == r)
  {
    if ElementPlaca(e) != "" {
      var h := Search(Plate, e.textContent, 0);
      PlateCapture(e.textContent, h.value.start);
      UpperPlateWithUf(h.value.capture);
    }
  }

  /** A plate found in stage 4 is plate-shaped, possibly with a state suffix, and upper-case. */
  lemma InfCplPlacaShape(infCpl: string)
    ensures var r := InfCplPlaca(infCpl);
            r == "" || (IsPlateWithUf(r) && UpperStr(r) == r)
  {
    var c := Search(CarretaLabel, infCpl, 0);
    var b := Search(ReboqueLabel, infCpl, 0);
    var all := AllMatches(PlateUf, infCpl, 0);
    if c.Some? {
      PlateUfCapture(CarretaLabel, infCpl, c.value.start);
      UpperPlateWithUf(c.value.capture);
    }
    if b.Some? {
      PlateUfCapture(ReboqueLabel, infCpl, b.value.start);
      UpperPlateWithUf(b.value.capture);
    }
    if |all| > 0 {
      PlateUfCapture(PlateUf, infCpl, all[|all| - 1].start);
      UpperPlateWithUf(all[|all| - 1].capture);
    }
  }

  /** The seals are "" exactly when the `infCpl` text has no `Lacres:` match,
      and otherwise a run of digits and dashes. */
  lemma SealsShape(doc: Document)
    ensures var r := ParseNF(doc).lacres;
            var t := Or(TagText(doc, "infCpl"), "");
            && (r == "" <==> forall i :: 0 <= i <= |t| ==> MatchAt(SealLabel, t, i).None?)
            && forall k :: 0 <= k < |r| ==> InClass(r[k], SealChars)
  {
    var t := Or(TagText(doc, "infCpl"), "");
    var m := Search(SealLabel, t, 0);
    if m.Some? {
      SealCapture(t, m.value.start);
      var c := m.value.capture;
      assert NoSpace(c);
      TrimOfNoSpace(c);
    }
  }

  /** A `Carreta:` label followed by a plate gives that plate, upper-cased. */
  lemma CarretaLabelled(s: string, m: string)
    requires IsPlate(m) && s == "Carreta: " + m
    ensures InfCplPlaca(s) == UpperStr(m)
  {
    assert LowerStr(s[0..7]) == "carreta";
    RunEndAt(s, 7, ColonsOrSpaces, 9);
    assert s[9..] == m;
    if |m| == 7 {
      assert s[9..16] == m;
    } else {
      assert s[9..17] == m;
    }
    assert MatchAt(CarretaLabel, s, 0) == Some(Hit(0, |s|, m));
    SearchFinds(CarretaLabel, s, 0, 0);
  }
}

=== FILE: lab_report.dfy ===
/**
 * The lab-report (laudo) scanner: the body of `parseCSV` run over text that
 * has already been read. Each of five fields is taken from the first
 * non-blank line that offers a value for it, and the expiry date is then
 * computed from the product code and the production date.
 */
module LabReport {
  import opened Text
  import opened Patterns
  import opened Expiry

  datatype Laudo = Laudo(
    nota: string, placa: string, data: string, codigoProd: string, validade: string, lacres: string)

  /** The five fields the scanner fills. */
  datatype Field = Nota | Placa | CodigoProd | Data | Lacres

  /** `split(/[,;\t]/)`'s separators. */
  const FieldSeparators: set<char> := {',', ';', '\t'}

  /** `partes.find(p => /^\d+$/.test(p))`, "" when no piece is a non-empty run of digits. */
  function FirstDigitField(parts: seq<string>): string {
    if parts == [] then ""
    else if parts[0] != "" && AllDigits(parts[0]) then parts[0]
    else FirstDigitField(parts[1..])
  }

  /** The chosen piece is the first non-empty all-digit one; "" means there is none. */
  lemma {:induction false} FirstDigitFieldIsFirst(parts: seq<string>)
    ensures var r := FirstDigitField(parts);
            && (r == "" <==> forall k :: 0 <= k < |parts| ==> parts[k] == "" || !AllDigits(parts[k]))
            && (r != "" ==>
                  exists k :: (&& 0 <= k < |parts| && parts[k] == r && AllDigits(r)
                               && forall j :: 0 <= j < k ==> parts[j] == "" || !AllDigits(parts[j])))
  {
    if parts != [] && !(parts[0] != "" && AllDigits(parts[0])) {
      FirstDigitFieldIsFirst(parts[1..]);
      var r := FirstDigitField(parts);
      if r != "" {
        var k :| 0 <= k < |parts[1..]| && parts[1..][k] == r && AllDigits(r)
                 && forall j :: 0 <= j < k ==> parts[1..][j] == "" || !AllDigits(parts[1..][j]);
        assert parts[k + 1] == r;
      }
    }
  }

  /** The trimmed pieces of a line split at commas, semicolons and tabs. */
  function TrimmedPieces(l: string): (r: seq<string>) {
    var parts := Split(l, FieldSeparators);
    seq(|parts|, k requires 0 <= k < |parts| => Trim(parts[k]))
  }

  /** What a trimmed, non-blank line offers for field `f`; "" when nothing. */
  function Offer(f: Field, l: string): string {
    match f
    case Nota => FirstCapture(Digits4, l)
    case Placa => UpperStr(FirstCapture(Plate, l))
    case CodigoProd => if ContainsIgnoringCase(l, "produto") then FirstDigitField(TrimmedPieces(l)) else ""
    case Data => FirstCapture(DayMonthYear, l)
    case Lacres => if ContainsIgnoringCase(l, "lacre") then Trim(FirstCapture(SealLabel, l)) else ""
  }

  /** What a raw line offers: it is trimmed first, and a blank line is skipped. */
  function LineOffer(f: Field, line: string): string {
    var l := Trim(line);
    if l == "" then "" else Offer(f, l)
  }

  /** What each line offers for field `f`, in order. */
  function Offers(f: Field, lines: seq<string>): (r: seq<string>)
    ensures |r| == |lines|
  {
    seq(|lines|, k requires 0 <= k < |lines| => LineOffer(f, lines[k]))
  }

  /** The first non-empty offer; "" when every offer is empty. */
  function FirstOffer(offers: seq<string>): string {
    if offers == [] then ""
    else
      var before := FirstOffer(offers[..|offers| - 1]);
      if before != "" then before else offers[|offers| - 1]
  }

  /** The value field `f` holds after the scan has seen `lines`: set once, by the first line that offers one. */
  function Scan(f: Field, lines: seq<string>): string {
    FirstOffer(Offers(f, lines))
  }

  /** The lines of the report: carriage returns removed, then split at line feeds. */
  function Lines(texto: string): seq<string> {
    Split(RemoveAll(texto, '\r'), {'\n'})
  }

  /** The specification of the scan: every field from its first offering line, then the expiry. */
  function ParseLaudo(texto: string): Laudo {
    var lines := Lines(texto);
    var codigo := Scan(CodigoProd, lines);
    var data := Scan(Data, lines);
    Laudo(Scan(Nota, lines), Scan(Placa, lines), data, codigo, Validade(codigo, data), Scan(Lacres, lines))
  }

  lemma {:induction false} FirstOfferStable(a: seq<string>, b: seq<string>)
    requires FirstOffer(a) != ""
    ensures FirstOffer(a + b) == FirstOffer(a)
    decreases |b|
  {
    if b != [] {
      var c := a + b;
      assert c[..|c| - 1] == a + b[..|b| - 1];
      FirstOfferStable(a, b[..|b| - 1]);
    } else {
      assert a + b == a;
    }
  }

  lemma {:induction false} FirstOfferEmpty(offers: seq<string>)
    ensures FirstOffer(offers) == "" <==> forall k :: 0 <= k < |offers| ==> offers[k] == ""
  {
    if offers != [] {
      var init := offers[..|offers| - 1];
      FirstOfferEmpty(init);
      assert forall k :: 0 <= k < |init| ==> init[k] == offers[k];
    }
  }

  lemma FirstOfferIsFirst(offers: seq<string>, k: nat)
    requires k < |offers| && offers[k] != ""
    requires forall j :: 0 <= j < k ==> offers[j] == ""
    ensures FirstOffer(offers) == offers[k]
  {
    var a := offers[..k];
    FirstOfferEmpty(a);
    assert offers[..k + 1][..k] == a;
    FirstOfferStable(offers[..k + 1], offers[k + 1..]);
    assert offers[..k + 1] + offers[k + 1..] == offers;
  }

  lemma OffersConcat(f: Field, a: seq<string>, b: seq<string>)
    ensures Offers(f, a + b) == Offers(f, a) + Offers(f, b)
  {
    var o, oa, ob := Offers(f, a + b), Offers(f, a), Offers(f, b);
    assert forall k :: 0 <= k < |a| ==> o[k] == oa[k];
    assert forall k :: 0 <= k < |b| ==> o[|a| + k] == ob[k];
  }

  /** Once a field has a value, later lines never change it. */
  lemma ScanStable(f: Field, a: seq<string>, b: seq<string>)
    requires Scan(f, a) != ""
    ensures Scan(f, a + b) == Scan(f, a)
  {
    OffersConcat(f, a, b);
    FirstOfferStable(Offers(f, a), Offers(f, b));
  }

  /** A field stays "" exactly as long as no line offers anything for it. */
  lemma ScanEmpty(f: Field, lines: seq<string>)
    ensures Scan(f, lines) == "" <==> forall k :: 0 <= k < |lines| ==> LineOffer(f, lines[k]) == ""
  {
    var o := Offers(f, lines);
    assert forall k :: 0 <= k < |lines| ==> o[k] == LineOffer(f, lines[k]);
    FirstOfferEmpty(o);
  }

  /** The first line that offers a value for a field decides it. */
  lemma ScanIsFirst(f: Field, lines: seq<string>, k: nat)
    requires k < |lines| && LineOffer(f, lines[k]) != ""
    requires forall j :: 0 <= j < k ==> LineOffer(f, lines[j]) == ""
    ensures Scan(f, lines) == LineOffer(f, lines[k])
  {
    FirstOfferIsFirst(Offers(f, lines), k);
  }

  /** One more line: the field keeps its value, or takes what the line offers. */
  lemma ScanStep(f: Field, lines: seq<string>, i: nat)
    requires i < |lines|
    ensures Scan(f, lines[..i + 1])
            == if Scan(f, lines[..i]) != "" then Scan(f, lines[..i]) else LineOffer(f, lines[i])
  {
    var o := Offers(f, lines[..i + 1]);
    assert o[..i] == Offers(f, lines[..i]);
  }

  /** `l.match(re)`: the capture of the leftmost match, "" when there is none. */
  method FirstMatch(p: Pattern, l: string) returns (v: string)
    ensures v == FirstCapture(p, l)
    ensures v == "" <==> forall i :: 0 <= i <= |l| ==> MatchAt(p, l, i).None?
    ensures v != "" ==>
              exists i :: && 0 <= i <= |l| && MatchAt(p, l, i).Some? && MatchAt(p, l, i).value.capture == v
                          && forall j :: 0 <= j < i ==> MatchAt(p, l, j).None?
  {
    v := "";
    var m := Search(p, l, 0);
    if m.Some? {
      v := m.value.capture;
      CaptureNonEmpty(p, l, m.value.start);
    }
  }

  /** One guarded block of the loop body, on a trimmed, non-blank line: a field still empty takes what the line offers. */
  method Fill(f: Field, l: string, v0: string) returns (v: string)
    ensures v == if v0 != "" then v0 else Offer(f, l)
  {
    v := v0;
    if v != "" {
      return;
    }
    match f
    case Nota =>
      v := FirstMatch(Digits4, l);
    case Placa =>
      v := FirstMatch(Plate, l);
      v := UpperStr(v);
    case CodigoProd =>
      if ContainsIgnoringCase(l, "produto") {
        v := FirstDigitField(TrimmedPieces(l));
      }
    case Data =>
      v := FirstMatch(DayMonthYear, l);
    case Lacres =>
      if ContainsIgnoringCase(l, "lacre") {
        v := FirstMatch(SealLabel, l);
        v := Trim(v);
      }
  }

  /** The loop of `parseCSV`: one pass over the lines, each field filled at most once. */
  method ScanLines(linhas: seq<string>)
    returns (nota: string, placa: string, codigoProd: string, data: string, lacres: string)
    ensures nota == Scan(Nota, linhas) && placa == Scan(Placa, linhas)
    ensures codigoProd == Scan(CodigoProd, linhas) && data == Scan(Data, linhas)
    ensures lacres == Scan(Lacres, linhas)
  {
    nota, placa, data, codigoProd, lacres := "", "", "", "", "";
    for i := 0 to |linhas|
      invariant nota == Scan(Nota, linhas[..i])
      invariant placa == Scan(Placa, linhas[..i])
      invariant codigoProd == Scan(CodigoProd, linhas[..i])
      invariant data == Scan(Data, linhas[..i])
      invariant lacres == Scan(Lacres, linhas[..i])
    {
      ScanStep(Nota, linhas, i);
      ScanStep(Placa, linhas, i);
      ScanStep(CodigoProd, linhas, i);
      ScanStep(Data, linhas, i);
      ScanStep(Lacres, linhas, i);
      var l := Trim(linhas[i]);
      if l == "" {
        continue;
      }
      nota := Fill(Nota, l, nota);
      placa := Fill(Placa, l, placa);
      codigoProd := Fill(CodigoProd, l, codigoProd);
      data := Fill(Data, l, data);
      lacres := Fill(Lacres, l, lacres);
    }
    assert linhas[..|linhas|] == linhas;
  }

  /** `parseCSV` once the text is read: split into lines, scan them, then compute the expiry. */
  method ParseCsv(texto: string) returns (laudo: Laudo)
    ensures laudo == ParseLaudo(texto)
    ensures laudo.validade == Validade(laudo.codigoProd, laudo.data)
  {
    var linhas := Split(RemoveAll(texto, '\r'), {'\n'});
    var nota, placa, codigoProd, data, lacres := ScanLines(linhas);
    var validade := ValidadePorCodigo(codigoProd, data);
    laudo := Laudo(nota, placa, data, codigoProd, validade, lacres);
  }

  /** A line with four digits in a row offers an invoice number. */
  lemma NotaOffered(l: string, i: nat)
    requires i + 4 <= |l| && AllDigits(l[i..i + 4])
    ensures Offer(Nota, l) != ""
  {
    Digits4Found(l, i);
    FoundSomewhere(Digits4, l, i);
  }

  /** A line holding a plate offers a plate. */
  lemma PlacaOffered(l: string, i: nat, n: nat)
    requires (n == 7 || n == 8) && i + n <= |l| && IsPlate(l[i..i + n])
    ensures Offer(Placa, l) != ""
  {
    PlateFound(l, i, n);
    FoundSomewhere(Plate, l, i);
  }

  /** A line holding a `DD/MM/YYYY` date offers a date. */
  lemma DataOffered(l: string, i: nat)
    requires i + 10 <= |l| && IsDayMonthYear(l[i..i + 10])
    ensures Offer(Data, l) != ""
  {
    DayMonthYearFound(l, i);
    FoundSomewhere(DayMonthYear, l, i);
  }

  /** Once some line of the report holds four digits in a row, the scan yields an invoice number. */
  lemma NotaScanned(lines: seq<string>, k: nat, i: nat)
    requires k < |lines|
    requires var l := Trim(lines[k]); i + 4 <= |l| && AllDigits(l[i..i + 4])
    ensures Scan(Nota, lines) != ""
  {
    NotaOffered(Trim(lines[k]), i);
    ScanEmpty(Nota, lines);
  }

  /**
   * No keyword is needed for the invoice number: on a line that is just a
   * date, the year is a run of four digits and is read as the number.
   */
  lemma DateLineGivesNota(l: string)
    requires IsDayMonthYear(l)
    ensures Offer(Nota, l) == l[6..10] && Offer(Data, l) == l
  {
    assert l[6..10] == l[6..][..4];
    forall i | 0 <= i < 6
      ensures MatchAt(Digits4, l, i).None?
    {
      if i <= 2 { assert l[i..i + 4][2 - i] == '/'; }
      else { assert l[i..i + 4][5 - i] == '/'; }
    }
    RunEndIsLongest(l, 6, Digits);
    SearchFinds(Digits4, l, 0, 6);
    SearchFinds(DayMonthYear, l, 0, 0);
  }
}

=== FILE: normalize.dfy ===
/** `normalizaPlaca` and `normalizaNota` (comparador.js:322-334): the
    canonical forms in which plates and invoice numbers are compared. */
module Normalize {
  import opened Wrappers
  import opened Text
  import opened Patterns

  /** `String(s).replace(/\/\s*[A-Z]{2}$/i, '').trim()`. */
  function StripState(s: string): string {
    match Search(StateSuffix, s, 0)
    case Some(h) => Trim(s[..h.start] + s[h.stop..])
    case None => Trim(s)
  }

  /** `s.replace(/[^A-Z0-9]/gi, '')`. */
  function KeepAlnum(s: string): string {
    if s == [] then "" else (if IsAlnum(s[0]) then [s[0]] else "") + KeepAlnum(s[1..])
  }

  /** `normalizaPlaca`: drop a trailing state suffix, keep ASCII letters and
      digits, upper-case. Empty input gives the empty string. */
  function NormalizaPlaca(p: string): (r: string)
    ensures p == "" ==> r == ""
    ensures UpperAlnum(r)
    ensures Search(StateSuffix, p, 0).None? ==> r == UpperStr(KeepAlnum(p))
  {
    if p == "" then ""
    else
      var u := UpperStr(KeepAlnum(StripState(p)));
      UpperOfKeepAlnum(StripState(p));
      TrimOfNoSpace(u);
      KeepAlnumOfTrim(p);
      Trim(u)
  }

  /** `s.replace(/^0+/, '')`. */
  function DropLeadingZeros(s: string): string {
    if s != [] && s[0] == '0' then DropLeadingZeros(s[1..]) else s
  }

  /** `normalizaNota`: strip leading zeros, then trim. On a digit string the
      result is the same number written without leading zeros. */
  function NormalizaNota(n: string): (r: string)
    ensures n == "" ==> r == ""
    ensures AllDigits(n) ==> AllDigits(r) && (r == "" || r[0] != '0') && DecimalValue(r) == DecimalValue(n)
  {
    if n == "" then "" else
      var d := DropLeadingZeros(n);
      DropLeadingZerosCuts(n);
      if AllDigits(n) then
        assert AllDigits(d);
        TrimOfNoSpace(d);
        DropLeadingZerosValue(n);
        Trim(d)
      else Trim(d)
  }

  // ---------------------------------------------------------------------
  // Helpers about KeepAlnum

  lemma {:induction false} KeepAlnumKeepsAlnum(s: string)
    ensures forall k :: 0 <= k < |KeepAlnum(s)| ==> IsAlnum(KeepAlnum(s)[k])
  {
    if s != [] { KeepAlnumKeepsAlnum(s[1..]); }
  }

  lemma UpperOfKeepAlnum(s: string)
    ensures UpperAlnum(UpperStr(KeepAlnum(s)))
  {
    KeepAlnumKeepsAlnum(s);
  }

  lemma {:induction false} KeepAlnumConcat(a: string, b: string)
    ensures KeepAlnum(a + b) == KeepAlnum(a) + KeepAlnum(b)
  {
    if a == [] {
      assert a + b == b;
    } else {
      var c := a + b;
      assert c[0] == a[0] && c[1..] == a[1..] + b;
      KeepAlnumConcat(a[1..], b);
      var head: string := if IsAlnum(a[0]) then [a[0]] else "";
      assert KeepAlnum(c) == head + KeepAlnum(a[1..] + b);
      assert KeepAlnum(a) == head + KeepAlnum(a[1..]);
      assert head + (KeepAlnum(a[1..]) + KeepAlnum(b)) == (head + KeepAlnum(a[1..])) + KeepAlnum(b);
    }
  }

  lemma {:induction false} KeepAlnumOfAlnum(s: string)
    requires forall k :: 0 <= k < |s| ==> IsAlnum(s[k])
    ensures KeepAlnum(s) == s
  {
    if s != [] { KeepAlnumOfAlnum(s[1..]); }
  }

  lemma {:induction false} KeepAlnumOfSpaces(s: string)
    requires forall k :: 0 <= k < |s| ==> IsSpace(s[k])
    ensures KeepAlnum(s) == ""
  {
    if s != [] { KeepAlnumOfSpaces(s[1..]); }
  }

  /** Trimming never changes which letters and digits survive. */
  lemma KeepAlnumOfTrim(s: string)
    ensures KeepAlnum(Trim(s)) == KeepAlnum(s)
  {
    var a, b := TrimCuts(s);
    assert s == s[..a] + s[a..b] + s[b..];
    KeepAlnumConcat(s[..a] + s[a..b], s[b..]);
    KeepAlnumConcat(s[..a], s[a..b]);
    KeepAlnumOfSpaces(s[..a]);
    KeepAlnumOfSpaces(s[b..]);
  }

  lemma NoStateSuffixWithoutSlash(s: string)
    requires forall k :: 0 <= k < |s| ==> s[k] != '/'
    ensures Search(StateSuffix, s, 0).None?
  {
    forall j | 0 <= j <= |s|
      ensures MatchAt(StateSuffix, s, j).None?
    {
    }
  }

  // ---------------------------------------------------------------------
  // Properties of normalizaPlaca

  /** Normalising a normalised plate changes nothing. */
  lemma NormalizaPlacaIdempotent(p: string)
    ensures NormalizaPlaca(NormalizaPlaca(p)) == NormalizaPlaca(p)
  {
    var r := NormalizaPlaca(p);
    if r != "" {
      NoStateSuffixWithoutSlash(r);
      TrimOfNoSpace(r);
      KeepAlnumOfAlnum(r);
      UpperStrOfUpperAlnum(r);
    }
  }

  /** The state-suffix expression matches at the `/` of `t + "/" + w + [a, b]`
      and nowhere before it. */
  lemma StateSuffixFound(t: string, w: string, a: char, b: char)
    requires forall k :: 0 <= k < |w| ==> IsSpace(w[k])
    requires IsLetter(a) && IsLetter(b)
    ensures var s := t + "/" + w + [a, b];
            Search(StateSuffix, s, 0) == Some(Hit(|t|, |s|, s[|t|..]))
  {
    var s := t + "/" + w + [a, b];
    assert s[|t|] == '/';
    assert s[|t| + 1 + |w|] == a;
    assert forall q :: |t| + 1 <= q < |t| + 1 + |w| ==> s[q] == w[q - |t| - 1];
    RunEndAt(s, |t| + 1, Spaces, |t| + 1 + |w|);
    assert MatchAt(StateSuffix, s, |t|) == Some(Hit(|t|, |s|, s[|t|..]));
    forall j | 0 <= j < |t|
      ensures MatchAt(StateSuffix, s, j).None?
    {
      if s[j] == '/' {
        RunEndBefore(s, j + 1, Spaces, |t|);
      }
    }
    SearchFinds(StateSuffix, s, 0, |t|);
  }

  /** A trailing `/`, any white space and two letters are removed; what
      remains keeps exactly its ASCII letters and digits, upper-cased. */
  lemma StripsStateSuffix(t: string, w: string, a: char, b: char)
    requires forall k :: 0 <= k < |w| ==> IsSpace(w[k])
    requires IsLetter(a) && IsLetter(b)
    ensures NormalizaPlaca(t + "/" + w + [a, b]) == UpperStr(KeepAlnum(t))
  {
    var s := t + "/" + w + [a, b];
    StateSuffixFound(t, w, a, b);
    assert s[..|t|] + s[|s|..] == t;
    assert StripState(s) == Trim(t);
    KeepAlnumOfTrim(t);
    UpperOfKeepAlnum(t);
    TrimOfNoSpace(UpperStr(KeepAlnum(t)));
  }

  /** Bare plate: three upper-case letters, a digit, three upper-case letters or digits. */
  predicate IsBarePlate(r: string) {
    |r| == 7 && IsPlate(r) && UpperAlnum(r)
  }

  /** A plate-shaped text without its dash. */
  function WithoutDash(plate: string): string
    requires IsPlate(plate)
  {
    if |plate| == 8 then plate[..3] + plate[4..] else plate
  }

  lemma KeepAlnumOfPlate(plate: string)
    requires IsPlate(plate)
    ensures KeepAlnum(plate) == WithoutDash(plate)
  {
    if |plate| == 7 {
      KeepAlnumOfAlnum(plate);
    } else {
      assert plate == plate[..3] + "-" + plate[4..];
      KeepAlnumConcat(plate[..3] + "-", plate[4..]);
      KeepAlnumConcat(plate[..3], "-");
      KeepAlnumOfAlnum(plate[..3]);
      KeepAlnumOfAlnum(plate[4..]);
      assert KeepAlnum("-") == "";
    }
  }

  /** A plate normalises to its letters and digits, upper-cased. */
  lemma NormalizaPlacaOfPlate(plate: string)
    requires IsPlate(plate)
    ensures NormalizaPlaca(plate) == UpperStr(WithoutDash(plate))
    ensures IsBarePlate(NormalizaPlaca(plate))
  {
    StripStateOfPlate(plate);
    KeepAlnumOfPlate(plate);
    UpperOfKeepAlnum(plate);
    TrimOfNoSpace(UpperStr(WithoutDash(plate)));
    BareWithoutDash(plate);
  }

  lemma StripStateOfPlate(plate: string)
    requires IsPlate(plate)
    ensures StripState(plate) == plate
  {
    assert forall k :: 0 <= k < |plate| ==> plate[k] != '/';
    NoStateSuffixWithoutSlash(plate);
    TrimNoop(plate);
  }

  lemma BareWithoutDash(plate: string)
    requires IsPlate(plate)
    ensures IsBarePlate(UpperStr(WithoutDash(plate)))
  {
    KeepAlnumOfPlate(plate);
    UpperOfKeepAlnum(plate);
    UpperPlateWithUf(WithoutDash(plate));
  }

  /** A plate followed by a state suffix normalises as the plate alone. */
  lemma NormalizaPlacaOfPlateUf(plate: string, uf: string)
    requires IsPlate(plate) && IsUf(uf)
    ensures NormalizaPlaca(plate + uf) == NormalizaPlaca(plate)
  {
    assert plate + uf == plate + "/" + [] + [uf[1], uf[2]];
    StripsStateSuffix(plate, [], uf[1], uf[2]);
    KeepAlnumOfPlate(plate);
    NormalizaPlacaOfPlate(plate);
  }

  /** Any plate-shaped match, with or without `-` and state suffix,
      normalises to a bare plate: the dash and the suffix go, letters are
      upper-cased. */
  lemma NormalizaPlacaOfMatch(m: string)
    requires IsPlateWithUf(m)
    ensures IsBarePlate(NormalizaPlaca(m))
  {
    if IsPlate(m) {
      NormalizaPlacaOfPlate(m);
    } else {
      assert m == m[..|m| - 3] + m[|m| - 3..];
      NormalizaPlacaOfPlateUf(m[..|m| - 3], m[|m| - 3..]);
      NormalizaPlacaOfPlate(m[..|m| - 3]);
    }
  }

  /** Upper-casing a plate before normalising it changes nothing. */
  lemma NormalizaPlacaOfUpper(m: string)
    requires IsPlate(m)
    ensures NormalizaPlaca(UpperStr(m)) == NormalizaPlaca(m)
  {
    WithoutDashOfUpper(m);
    NormalizaPlacaOfPlate(m);
    NormalizaPlacaOfPlate(UpperStr(m));
    UpperStrTwice(WithoutDash(m));
  }

  lemma WithoutDashOfUpper(m: string)
    requires IsPlate(m)
    ensures IsPlate(UpperStr(m)) && WithoutDash(UpperStr(m)) == UpperStr(WithoutDash(m))
  {
    UpperPlateWithUf(m);
    if |m| == 8 {
      var u := UpperStr(m);
      assert u[..3] == UpperStr(m[..3]) && u[4..] == UpperStr(m[4..]);
    }
  }

  /** The example of the invoice text `Carreta: DEF-5678`. */
  lemma NormalizaPlacaDashExample(m: string)
    requires m == "DEF-5678"
    ensures NormalizaPlaca(m) == "DEF5678"
  {
    DashPlate(m);
    NormalizaPlacaOfPlate(m);
    UpperStrOfUpperAlnum(WithoutDash(m));
  }

  lemma DashPlate(m: string)
    requires m == "DEF-5678"
    ensures IsPlate(m) && WithoutDash(m) == "DEF5678" && UpperAlnum(WithoutDash(m))
  {
  }

  // ---------------------------------------------------------------------
  // Properties of normalizaNota

  lemma {:induction false} DropLeadingZerosCuts(s: string)
    ensures var r := DropLeadingZeros(s);
            && (r == [] || r[0] != '0') && |r| <= |s| && r == s[|s| - |r|..]
            && forall k :: 0 <= k < |s| - |r| ==> s[k] == '0'
  {
    if s != [] && s[0] == '0' { DropLeadingZerosCuts(s[1..]); }
  }

  /** An all-zero invoice number normalises to the empty string. */
  lemma NormalizaNotaOfZeros(n: string)
    requires forall k :: 0 <= k < |n| ==> n[k] == '0'
    ensures NormalizaNota(n) == ""
  {
    if n != "" {
      AllZerosDropped(n);
    }
  }

  lemma {:induction false} AllZerosDropped(n: string)
    requires forall k :: 0 <= k < |n| ==> n[k] == '0'
    ensures DropLeadingZeros(n) == ""
  {
    if n != "" { AllZerosDropped(n[1..]); }
  }

  lemma {:induction false} DropLeadingZerosValue(s: string)
    requires AllDigits(s)
    ensures AllDigits(DropLeadingZeros(s)) && DecimalValue(DropLeadingZeros(s)) == DecimalValue(s)
  {
    DropLeadingZerosCuts(s);
    if s != [] && s[0] == '0' {
      DropLeadingZerosValue(s[1..]);
      assert s == "0" + s[1..];
      DecimalValueLeadingZero(s[1..]);
    }
  }

  /** Idempotent on strings without white space. */
  lemma NormalizaNotaIdempotent(n: string)
    requires NoSpace(n)
    ensures NormalizaNota(NormalizaNota(n)) == NormalizaNota(n)
  {
    if n != "" {
      DropLeadingZerosCuts(n);
      var d := DropLeadingZeros(n);
      assert NoSpace(d);
      TrimOfNoSpace(d);
      if d != "" {
        DropLeadingZerosCuts(d);
        assert DropLeadingZeros(d) == d;
      }
    }
  }

  /** With white space before the digits it is not idempotent: the trim runs
      after the zeros are stripped and can expose new leading zeros. */
  lemma NormalizaNotaNotIdempotent()
    ensures NormalizaNota("0 05") == "05" && NormalizaNota(" 05") == "05" && NormalizaNota("05") == "5"
  {
    assert "0 05"[1..] == " 05";
    assert " 05"[1..] == "05";
    assert "05"[1..] == "5";
    assert DropLeadingZeros("0 05") == " 05";
    assert DropLeadingZeros("05") == "5";
    assert DropLeadingZeros(" 05") == " 05";
    assert Trim(" 05") == "05";
    assert Trim("5") == "5";
  }

  /** The `00123` / `123` example: both normalise to the same number. */
  lemma NormalizaNotaExample()
    ensures NormalizaNota("00123") == "123" && NormalizaNota("123") == "123"
  {
    assert "00123"[1..] == "0123";
    assert "0123"[1..] == "123";
    assert DropLeadingZeros("00123") == "123";
    assert DropLeadingZeros("123") == "123";
    assert Trim("123") == "123";
  }
}

=== FILE: patterns.dfy ===
/** Hand-written matchers for the fixed regular expressions of
    comparador.js. `MatchAt` says what the expression matches when the match
    must start at a given index, with JavaScript's backtracking order;
    `Search` is `String.prototype.match` without the `g` flag (the leftmost
    match) and `AllMatches` is `match` with the `g` flag. The `i` flag on
    these ASCII-only expressions folds ASCII letters only. */
module Patterns {
  import opened Wrappers
  import opened Text

  datatype Pattern =
    | Plate         // /[A-Z]{3}-?\d[A-Z0-9]{3}/i
    | PlateUf       // /[A-Z]{3}-?\d[A-Z0-9]{3}(?:\/[A-Z]{2})?/i
    | Digits4       // /\d{4,}/
    | DayMonthYear  // /(\d{2}\/\d{2}\/\d{4})/
    | SealLabel     // /Lacres?:\s*([0-9-]+)/i, value of group 1
    | CarretaLabel  // /Carreta[:\s]*(<PlateUf>)/i, value of group 1
    | ReboqueLabel  // /Reboque[:\s]*(<PlateUf>)/i, value of group 1
    | StateSuffix   // /\/\s*[A-Z]{2}$/i

  /** A match spanning `start..stop`; `capture` is the text the source uses
      (the whole match, or group 1 where the expression has a group). */
  datatype Hit = Hit(start: nat, stop: nat, capture: string)

  datatype CharClass = Digits | Spaces | ColonsOrSpaces | SealChars

  predicate InClass(c: char, k: CharClass) {
    match k
    case Digits => IsDigit(c)
    case Spaces => IsSpace(c)
    case ColonsOrSpaces => c == ':' || IsSpace(c)
    case SealChars => IsDigit(c) || c == '-'
  }

  /** End of the longest run of `k` characters starting at `i` (a greedy `*`). */
  function RunEnd(s: string, i: nat, k: CharClass): (j: nat)
    requires i <= |s|
    ensures i <= j <= |s|
    decreases |s| - i
  {
    if i < |s| && InClass(s[i], k) then RunEnd(s, i + 1, k) else i
  }

  /** The run is the longest one: every character in it is of the class,
      and the one after it, if any, is not. */
  lemma {:induction false} RunEndIsLongest(s: string, i: nat, k: CharClass)
    requires i <= |s|
    ensures var j := RunEnd(s, i, k);
            && (forall p :: i <= p < j ==> InClass(s[p], k))
            && (j == |s| || !InClass(s[j], k))
    decreases |s| - i
  {
    if i < |s| && InClass(s[i], k) { RunEndIsLongest(s, i + 1, k); }
  }

  /** A run is ended by the first character outside the class. */
  lemma RunEndAt(s: string, i: nat, k: CharClass, j: nat)
    requires i <= j < |s| && !InClass(s[j], k)
    requires forall p :: i <= p < j ==> InClass(s[p], k)
    ensures RunEnd(s, i, k) == j
  {
    RunEndIsLongest(s, i, k);
  }

  /** A run cannot cross a character outside the class. */
  lemma RunEndBefore(s: string, i: nat, k: CharClass, j: nat)
    requires i <= j < |s| && !InClass(s[j], k)
    ensures RunEnd(s, i, k) <= j
  {
    RunEndIsLongest(s, i, k);
  }

  /** Plate shape: three letters, an optional dash, a digit, three letters or digits. */
  predicate IsPlate(m: string) {
    || (&& |m| == 7 && IsLetter(m[0]) && IsLetter(m[1]) && IsLetter(m[2])
        && IsDigit(m[3]) && IsAlnum(m[4]) && IsAlnum(m[5]) && IsAlnum(m[6]))
    || (&& |m| == 8 && IsLetter(m[0]) && IsLetter(m[1]) && IsLetter(m[2])
        && m[3] == '-' && IsDigit(m[4]) && IsAlnum(m[5]) && IsAlnum(m[6]) && IsAlnum(m[7]))
  }

  /** A state suffix such as `/SP`. */
  predicate IsUf(m: string) {
    |m| == 3 && m[0] == '/' && IsLetter(m[1]) && IsLetter(m[2])
  }

  predicate IsPlateWithUf(m: string) {
    IsPlate(m) || (|m| >= 3 && IsPlate(m[..|m| - 3]) && IsUf(m[|m| - 3..]))
  }

  /** `DD/MM/YYYY` shape. */
  predicate IsDayMonthYear(m: string) {
    && |m| == 10 && m[2] == '/' && m[5] == '/'
    && IsDigit(m[0]) && IsDigit(m[1]) && IsDigit(m[3]) && IsDigit(m[4])
    && IsDigit(m[6]) && IsDigit(m[7]) && IsDigit(m[8]) && IsDigit(m[9])
  }

  /** Upper-casing keeps a plate a plate. */
  lemma UpperPlateWithUf(m: string)
    requires IsPlateWithUf(m)
    ensures IsPlateWithUf(UpperStr(m)) && UpperStr(UpperStr(m)) == UpperStr(m)
    ensures IsPlate(m) ==> IsPlate(UpperStr(m))
  {
    var u := UpperStr(m);
    UpperStrTwice(m);
    if !IsPlate(m) {
      assert u[..|u| - 3] == UpperStr(m[..|m| - 3]);
      assert u[|u| - 3..] == UpperStr(m[|m| - 3..]);
    }
  }

  /** Length of the plate the expression matches at `i`, 0 when none. The
      dash is tried first; a digit and a dash cannot both stand at `i + 3`,
      so at most one length fits. */
  function PlateLen(s: string, i: nat): (n: nat)
    requires i <= |s|
    ensures n == 0 || n == 7 || n == 8
    ensures n != 0 ==> i + n <= |s| && IsPlate(s[i..i + n])
  {
    if i + 8 <= |s| && IsPlate(s[i..i + 8]) then 8
    else if i + 7 <= |s| && IsPlate(s[i..i + 7]) then 7
    else 0
  }

  /** End of the plate with its optional state suffix matched at `i`, 0 when none. */
  function PlateUfEnd(s: string, i: nat): (e: nat)
    requires i <= |s|
    ensures e == 0 <==> PlateLen(s, i) == 0
    ensures e != 0 ==> i < e <= |s| && IsPlateWithUf(s[i..e])
    ensures var n := PlateLen(s, i);
            n != 0 && i + n + 3 <= |s| && IsUf(s[i + n..i + n + 3]) ==> e == i + n + 3
  {
    var n := PlateLen(s, i);
    if n == 0 then 0
    else if i + n + 3 <= |s| && IsUf(s[i + n..i + n + 3]) then
      assert s[i..i + n + 3][..n] == s[i..i + n];
      assert s[i..i + n + 3][n..] == s[i + n..i + n + 3];
      i + n + 3
    else i + n
  }

  /** `s` holds the lower-case ASCII literal `lit` at `i`, ignoring case. */
  predicate LiteralAt(s: string, i: nat, lit: string) {
    i + |lit| <= |s| && LowerStr(s[i..i + |lit|]) == lit
  }

  /** `Carreta[:\s]*(...)` and `Reboque[:\s]*(...)`: shortening the greedy
      `[:\s]*` would put a colon or a space where the plate's first letter must be. */
  function LabelledPlateAt(s: string, i: nat, lit: string): (r: Option<Hit>)
    requires i <= |s|
    ensures r.Some? ==> r.value.start == i && i < r.value.stop <= |s|
    ensures r.Some? ==>
              && LiteralAt(s, i, lit)
              && var k := RunEnd(s, i + |lit|, ColonsOrSpaces);
                 k < r.value.stop && r.value.capture == s[k..r.value.stop]
  {
    if !LiteralAt(s, i, lit) then None
    else
      var k := RunEnd(s, i + |lit|, ColonsOrSpaces);
      var e := PlateUfEnd(s, k);
      if e == 0 then None else Some(Hit(i, e, s[k..e]))
  }

  /** `Lacres?:\s*([0-9-]+)`: after a greedy `s`, a colon must follow; giving
      the `s` back would need a colon where the `s` is, and white space and
      `[0-9-]` share no character, so no other backtracking helps either. */
  function SealAt(s: string, i: nat): (r: Option<Hit>)
    requires i <= |s|
    ensures r.Some? ==> r.value.start == i && i < r.value.stop <= |s|
    ensures r.Some? ==>
              var c, e := r.value.capture, r.value.stop;
              && c != [] && (forall k :: 0 <= k < |c| ==> InClass(c[k], SealChars))
              && i + 6 <= e - |c| && c == s[e - |c|..e]
              && !InClass(s[e - |c| - 1], SealChars)
              && (e == |s| || !InClass(s[e], SealChars))
  {
    if !LiteralAt(s, i, "lacre") then None
    else
      var j := if i + 5 < |s| && Lower(s[i + 5]) == 's' then i + 6 else i + 5;
      if j < |s| && s[j] == ':' then
        var k := RunEnd(s, j + 1, Spaces);
        var e := RunEnd(s, k, SealChars);
        RunEndIsLongest(s, j + 1, Spaces);
        RunEndIsLongest(s, k, SealChars);
        if e > k then Some(Hit(i, e, s[k..e])) else None
      else None
  }

  /** Where the seal capture starts: right after `lacre`, an optional `s`,
      the colon and the white space that follows it. */
  lemma SealLabelled(s: string, i: nat)
    requires i <= |s| && SealAt(s, i).Some?
    ensures var h := SealAt(s, i).value;
            var start := h.stop - |h.capture|;
            && LiteralAt(s, i, "lacre")
            && exists j :: && (j == i + 5 || (j == i + 6 && Lower(s[i + 5]) == 's'))
                           && j < start && s[j] == ':'
                           && forall q :: j < q < start ==> IsSpace(s[q])
  {
    var j := if i + 5 < |s| && Lower(s[i + 5]) == 's' then i + 6 else i + 5;
    RunEndIsLongest(s, j + 1, Spaces);
  }

  /** The match of `p` that starts exactly at `i`, if any. */
  function MatchAt(p: Pattern, s: string, i: nat): (r: Option<Hit>)
    requires i <= |s|
    ensures r.Some? ==> r.value.start == i && i < r.value.stop <= |s|
  {
    match p
    case Plate =>
      var n := PlateLen(s, i);
      if n == 0 then None else Some(Hit(i, i + n, s[i..i + n]))
    case PlateUf =>
      var e := PlateUfEnd(s, i);
      if e == 0 then None else Some(Hit(i, e, s[i..e]))
    case Digits4 =>
      if i + 4 <= |s| && AllDigits(s[i..i + 4]) then
        var e := RunEnd(s, i, Digits);
        Some(Hit(i, e, s[i..e]))
      else None
    case DayMonthYear =>
      if i + 10 <= |s| && IsDayMonthYear(s[i..i + 10]) then Some(Hit(i, i + 10, s[i..i + 10])) else None
    case SealLabel => SealAt(s, i)
    case CarretaLabel => LabelledPlateAt(s, i, "carreta")
    case ReboqueLabel => LabelledPlateAt(s, i, "reboque")
    case StateSuffix =>
      if i < |s| && s[i] == '/' then
        var k := RunEnd(s, i + 1, Spaces);
        if k + 2 == |s| && IsLetter(s[k]) && IsLetter(s[k + 1]) then Some(Hit(i, |s|, s[i..])) else None
      else None
  }

  /** The leftmost match of `p` starting at or after `from`. */
  function Search(p: Pattern, s: string, from: nat): (r: Option<Hit>)
    requires from <= |s|
    ensures r.Some? ==> from <= r.value.start <= |s| && MatchAt(p, s, r.value.start) == r
    ensures r.Some? ==> forall j :: from <= j < r.value.start ==> MatchAt(p, s, j).None?
    ensures r.None? ==> forall j :: from <= j <= |s| ==> MatchAt(p, s, j).None?
    decreases |s| - from
  {
    var m := MatchAt(p, s, from);
    if m.Some? then m
    else if from == |s| then None
    else
      var r := Search(p, s, from + 1);
      assert forall j :: from <= j <= from ==> MatchAt(p, s, j) == m;
      r
  }

  /** The first index from which `p` matches is what `Search` finds. */
  lemma {:induction false} SearchFinds(p: Pattern, s: string, from: nat, j: nat)
    requires from <= j <= |s| && MatchAt(p, s, j).Some?
    requires forall i :: from <= i < j ==> MatchAt(p, s, i).None?
    ensures Search(p, s, from) == MatchAt(p, s, j)
    decreases j - from
  {
    if from < j { SearchFinds(p, s, from + 1, j); }
  }

  /** What `s.match(re)` yields for the source: the capture of the leftmost
      match, or "" when there is none. */
  function FirstCapture(p: Pattern, s: string): string {
    match Search(p, s, 0)
    case Some(h) => h.capture
    case None => ""
  }

  /** `s.match(re_g)` from index `from` on: the successive leftmost matches,
      each search resuming where the previous match ended. */
  function AllMatches(p: Pattern, s: string, from: nat): (r: seq<Hit>)
    requires from <= |s|
    ensures r == [] <==> Search(p, s, from).None?
    ensures r != [] ==> var h := r[|r| - 1];
              && from <= h.start < h.stop <= |s|
              && MatchAt(p, s, h.start) == Some(h)
              && Search(p, s, h.stop).None?
    decreases |s| - from
  {
    match Search(p, s, from)
    case None => []
    case Some(h) => [h] + AllMatches(p, s, h.stop)
  }

  // ---------------------------------------------------------------------
  // What each expression's captured text looks like

  lemma PlateCapture(s: string, i: nat)
    requires i <= |s| && MatchAt(Plate, s, i).Some?
    ensures var h := MatchAt(Plate, s, i).value; IsPlate(h.capture) && h.capture == s[i..h.stop]
  {
  }

  lemma PlateUfCapture(p: Pattern, s: string, i: nat)
    requires p.PlateUf? || p.CarretaLabel? || p.ReboqueLabel?
    requires i <= |s| && MatchAt(p, s, i).Some?
    ensures IsPlateWithUf(MatchAt(p, s, i).value.capture)
  {
  }

  lemma Digits4Capture(s: string, i: nat)
    requires i <= |s| && MatchAt(Digits4, s, i).Some?
    ensures var h := MatchAt(Digits4, s, i).value;
            && |h.capture| >= 4 && AllDigits(h.capture) && h.capture == s[i..h.stop]
            && (h.stop == |s| || !IsDigit(s[h.stop]))
  {
    RunEndIsLongest(s, i, Digits);
  }

  lemma DayMonthYearCapture(s: string, i: nat)
    requires i <= |s| && MatchAt(DayMonthYear, s, i).Some?
    ensures IsDayMonthYear(MatchAt(DayMonthYear, s, i).value.capture)
  {
  }

  lemma SealCapture(s: string, i: nat)
    requires i <= |s| && MatchAt(SealLabel, s, i).Some?
    ensures var c := MatchAt(SealLabel, s, i).value.capture;
            c != [] && forall k :: 0 <= k < |c| ==> InClass(c[k], SealChars)
    ensures var h := MatchAt(SealLabel, s, i).value;
            var c := h.capture;
            && i + 6 <= h.stop - |c| && c == s[h.stop - |c|..h.stop]
            && !InClass(s[h.stop - |c| - 1], SealChars)
            && (h.stop == |s| || !InClass(s[h.stop], SealChars))
    ensures var h := MatchAt(SealLabel, s, i).value;
            var start := h.stop - |h.capture|;
            && LiteralAt(s, i, "lacre")
            && exists j :: && (j == i + 5 || (j == i + 6 && Lower(s[i + 5]) == 's'))
                           && j < start && s[j] == ':'
                           && forall q :: j < q < start ==> IsSpace(s[q])
  {
    SealLabelled(s, i);
  }

  // ---------------------------------------------------------------------
  // Where each expression is sure to match

  /** Four digits at `i` start a `\d{4,}` match. */
  lemma Digits4Found(s: string, i: nat)
    requires i + 4 <= |s| && AllDigits(s[i..i + 4])
    ensures MatchAt(Digits4, s, i).Some?
  {
  }

  /** A `DD/MM/YYYY` shape at `i` is matched there, exactly. */
  lemma DayMonthYearFound(s: string, i: nat)
    requires i + 10 <= |s| && IsDayMonthYear(s[i..i + 10])
    ensures MatchAt(DayMonthYear, s, i) == Some(Hit(i, i + 10, s[i..i + 10]))
  {
  }

  /** A plate at `i`, with or without its dash, is matched there, exactly. */
  lemma PlateFound(s: string, i: nat, n: nat)
    requires (n == 7 || n == 8) && i + n <= |s| && IsPlate(s[i..i + n])
    ensures MatchAt(Plate, s, i) == Some(Hit(i, i + n, s[i..i + n]))
  {
    assert s[i..i + n][3] == s[i + 3];
    if n == 7 && i + 8 <= |s| {
      assert s[i..i + 8][3] == s[i + 3];
    }
  }

  /** A match anywhere means the leftmost search finds a non-empty capture. */
  lemma FoundSomewhere(p: Pattern, s: string, i: nat)
    requires i <= |s| && MatchAt(p, s, i).Some?
    ensures FirstCapture(p, s) != ""
  {
    var m := Search(p, s, 0);
    assert m.Some?;
    CaptureNonEmpty(p, s, m.value.start);
  }

  /** The greedy state suffix decides where the `/g` scan resumes: in
      `ABC1234/SPA1B2C3` the only plate is `ABC1234/SP`, and the letters
      after it cannot start another. */
  lemma GreedySuffixExample(m: string)
    requires m == "ABC1234/SPA1B2C3"
    ensures AllMatches(PlateUf, m, 0) == [Hit(0, 10, "ABC1234/SP")]
  {
    assert !IsPlate(m[0..8]) && IsPlate(m[0..7]);
    assert PlateLen(m, 0) == 7;
    assert IsUf(m[7..10]);
    assert PlateUfEnd(m, 0) == 10;
    assert m[0..10] == "ABC1234/SP";
    assert MatchAt(PlateUf, m, 0) == Some(Hit(0, 10, "ABC1234/SP"));
    SearchFinds(PlateUf, m, 0, 0);
    forall j | 10 <= j <= |m| ensures MatchAt(PlateUf, m, j).None? {
      assert PlateLen(m, j) == 0;
    }
    var rest := Search(PlateUf, m, 10);
    assert rest.None? by {
      if rest.Some? {
        assert MatchAt(PlateUf, m, rest.value.start).None?;
      }
    }
  }

  /** No expression captures the empty string. */
  lemma CaptureNonEmpty(p: Pattern, s: string, i: nat)
    requires i <= |s| && MatchAt(p, s, i).Some?
    ensures MatchAt(p, s, i).value.capture != []
  {
    match p
    case Plate => PlateCapture(s, i);
    case PlateUf => PlateUfCapture(p, s, i);
    case CarretaLabel => PlateUfCapture(p, s, i);
    case ReboqueLabel => PlateUfCapture(p, s, i);
    case Digits4 => Digits4Capture(s, i);
    case DayMonthYear => DayMonthYearCapture(s, i);
    case SealLabel => SealCapture(s, i);
    case StateSuffix =>
  }
}

=== FILE: reconcile.dfy ===
/**
 * The reconciliation in `compararFiles`: two invoices and one lab report are
 * turned into five comparison rows and a product summary. Weights are read
 * by a caller-supplied `peso` (the role of `normalizaPeso`), whose parsing is
 * not part of this model.
 */
module Reconcile {
  import opened Text
  import opened Patterns
  import opened Normalize
  import opened Expiry
  import opened LabReport
  import opened Invoice

  /** The status column of a row. */
  datatype Status = Ok | Erro | NotApplicable

  function StatusText(s: Status): (r: string)
    ensures r in {"ok", "erro", "N/A"}
    ensures (r == "ok" <==> s == Ok) && (r == "erro" <==> s == Erro) && (r == "N/A" <==> s == NotApplicable)
  {
    match s
    case Ok => "ok"
    case Erro => "erro"
    case NotApplicable => "N/A"
  }

  /** A table cell: text, or a weight in kilograms. */
  datatype Cell = Str(s: string) | Kg(w: real)

  datatype Row = Row(heading: string, nota1: Cell, nota2: Cell, laudo: Cell, status: Status, obs: string)

  datatype ProdutoInfo = ProdutoInfo(produto: string, dataFabricacao: string, dataValidade: string)

  datatype Resultado = Resultado(linhas: seq<Row>, produtoInfo: ProdutoInfo)

  const NA: string := "N/A"

  /** `s || 'N/A'` on a string. */
  function OrNA(s: string): string {
    Or(s, NA)
  }

  /** `n || 'N/A'` on a weight: zero is shown as "N/A". */
  function KgOrNA(w: real): Cell {
    if w == 0.0 then Str(NA) else Kg(w)
  }

  function Abs(x: real): real {
    if x < 0.0 then -x else x
  }

  /** `floatEq`: the weights agree within 0.001 kg. */
  predicate FloatEq(a: real, b: real) {
    Abs(a - b) <= 0.001
  }

  /** The status of the seals row. */
  function LacresStatus(nf1: NotaFiscal, nf2: NotaFiscal, laudo: Laudo): Status {
    if (nf1.lacres == laudo.lacres || nf2.lacres == laudo.lacres) && laudo.lacres != "" then Ok
    else if laudo.lacres != "" then Erro
    else NotApplicable
  }

  /** The rows and summary, for records whose plates have already been normalised. */
  function Rows(nf1: NotaFiscal, nf2: NotaFiscal, laudo: Laudo, peso: string -> real): seq<Row> {
    var pesoL1, pesoL2 := peso(nf1.pesoL), peso(nf2.pesoL);
    var pesoB1, pesoB2 := peso(nf1.pesoB), peso(nf2.pesoB);
    [ Row("Nota Fiscal", Str(OrNA(nf1.nNF)), Str(NA), Str(OrNA(laudo.nota)),
          if NormalizaNota(nf1.nNF) == NormalizaNota(laudo.nota) then Ok else Erro, ""),
      Row("Peso Líquido (kg)", KgOrNA(pesoL1), KgOrNA(pesoL2), Str(NA),
          if FloatEq(pesoL1, pesoL2) then Ok else Erro, ""),
      Row("Peso Bruto (kg)", KgOrNA(pesoB1), KgOrNA(pesoB2), Str(NA),
          if FloatEq(pesoB1, pesoB2) then Ok else Erro, ""),
      Row("Placa da Carreta", Str(OrNA(nf1.placa)), Str(OrNA(nf2.placa)), Str(OrNA(laudo.placa)),
          if NormalizaPlaca(nf1.placa) == NormalizaPlaca(laudo.placa)
             || NormalizaPlaca(nf2.placa) == NormalizaPlaca(laudo.placa) then Ok else Erro, ""),
      Row("Lacres", Str(OrNA(nf1.lacres)), Str(OrNA(nf2.lacres)), Str(OrNA(laudo.lacres)),
          LacresStatus(nf1, nf2, laudo), "")
    ]
  }

  /** The specification of `compararFiles` after the three inputs are extracted. */
  function Comparar(nf1: NotaFiscal, nf2: NotaFiscal, laudo: Laudo, peso: string -> real): Resultado {
    var n1 := nf1.(placa := NormalizaPlaca(nf1.placa));
    var n2 := nf2.(placa := NormalizaPlaca(nf2.placa));
    var l := laudo.(placa := NormalizaPlaca(laudo.placa));
    Resultado(Rows(n1, n2, l, peso),
              ProdutoInfo(OrNA(laudo.codigoProd), OrNA(laudo.data), OrNA(laudo.validade)))
  }

  /** `compararFiles`: extract both invoices and the report, normalise the plates in place, build the rows. */
  method CompararFiles(doc1: Document, doc2: Document, csv: string, peso: string -> real)
    returns (res: Resultado)
    ensures res == Comparar(ParseNF(doc1), ParseNF(doc2), ParseLaudo(csv), peso)
  {
    var nf1 := ParseXml(doc1);
    var nf2 := ParseXml(doc2);
    var laudo := ParseCsv(csv);
    var produtoInfo := ProdutoInfo(OrNA(laudo.codigoProd), OrNA(laudo.data), OrNA(laudo.validade));
    nf1 := nf1.(placa := NormalizaPlaca(nf1.placa));
    nf2 := nf2.(placa := NormalizaPlaca(nf2.placa));
    laudo := laudo.(placa := NormalizaPlaca(laudo.placa));
    var linhas := Rows(nf1, nf2, laudo, peso);
    res := Resultado(linhas, produtoInfo);
  }

  // ---------------------------------------------------------------------
  // Properties of the result

  /** Five rows with fixed labels, in order, and an empty last column. */
  lemma FiveRows(nf1: NotaFiscal, nf2: NotaFiscal, laudo: Laudo, peso: string -> real)
    ensures var rows := Comparar(nf1, nf2, laudo, peso).linhas;
            && |rows| == 5
            && rows[0].heading == "Nota Fiscal" && rows[1].heading == "Peso Líquido (kg)"
            && rows[2].heading == "Peso Bruto (kg)" && rows[3].heading == "Placa da Carreta"
            && rows[4].heading == "Lacres"
            && forall k :: 0 <= k < 5 ==> rows[k].obs == ""
  {
    var n1 := nf1.(placa := NormalizaPlaca(nf1.placa));
    var n2 := nf2.(placa := NormalizaPlaca(nf2.placa));
    var l := laudo.(placa := NormalizaPlaca(laudo.placa));
    RowsShape(n1, n2, l, peso);
    var rows := Rows(n1, n2, l, peso);
    assert Comparar(nf1, nf2, laudo, peso).linhas == rows;
    forall k | 0 <= k < 5 ensures rows[k].obs == "" {
      assert k == 0 || k == 1 || k == 2 || k == 3 || k == 4;
    }
  }

  lemma RowsShape(nf1: NotaFiscal, nf2: NotaFiscal, laudo: Laudo, peso: string -> real)
    ensures var rows := Rows(nf1, nf2, laudo, peso);
            && |rows| == 5
            && rows[0].heading == "Nota Fiscal" && rows[1].heading == "Peso Líquido (kg)"
            && rows[2].heading == "Peso Bruto (kg)" && rows[3].heading == "Placa da Carreta"
            && rows[4].heading == "Lacres"
            && rows[0].obs == "" && rows[1].obs == "" && rows[2].obs == "" && rows[3].obs == "" && rows[4].obs == ""
  {
  }

  /** The invoice-number row: the second invoice is never consulted and always shows "N/A". */
  lemma NotaRow(nf1: NotaFiscal, nf2: NotaFiscal, other: NotaFiscal, laudo: Laudo, peso: string -> real)
    ensures var row := Comparar(nf1, nf2, laudo, peso).linhas[0];
            && row.nota2 == Str("N/A")
            && (row.status == Ok <==> NormalizaNota(nf1.nNF) == NormalizaNota(laudo.nota))
            && row == Comparar(nf1, other, laudo, peso).linhas[0]
  {
  }

  /** Invoice numbers that differ only by leading zeros agree. */
  lemma NotaRowLeadingZeros(nf1: NotaFiscal, nf2: NotaFiscal, laudo: Laudo, peso: string -> real)
    requires AllDigits(nf1.nNF) && AllDigits(laudo.nota)
    requires DecimalValue(nf1.nNF) == DecimalValue(laudo.nota)
    ensures Comparar(nf1, nf2, laudo, peso).linhas[0].status == Ok
  {
    var a, b := NormalizaNota(nf1.nNF), NormalizaNota(laudo.nota);
    DigitsWithoutLeadingZero(a, b);
  }

  /** The weight rows: agreement within tolerance, the lab column is "N/A", a zero weight shows as "N/A". */
  lemma WeightRows(nf1: NotaFiscal, nf2: NotaFiscal, laudo: Laudo, peso: string -> real)
    ensures var rows := Comparar(nf1, nf2, laudo, peso).linhas;
            && (rows[1].status == Ok <==> Abs(peso(nf1.pesoL) - peso(nf2.pesoL)) <= 0.001)
            && (rows[2].status == Ok <==> Abs(peso(nf1.pesoB) - peso(nf2.pesoB)) <= 0.001)
            && rows[1].laudo == Str(NA) && rows[2].laudo == Str(NA)
            && (rows[1].nota1 == Str(NA) <==> peso(nf1.pesoL) == 0.0)
            && (rows[1].nota1 != Str(NA) ==> rows[1].nota1 == Kg(peso(nf1.pesoL)))
            && (rows[1].nota2 == Str(NA) <==> peso(nf2.pesoL) == 0.0)
            && (rows[1].nota2 != Str(NA) ==> rows[1].nota2 == Kg(peso(nf2.pesoL)))
            && (rows[2].nota1 == Str(NA) <==> peso(nf1.pesoB) == 0.0)
            && (rows[2].nota1 != Str(NA) ==> rows[2].nota1 == Kg(peso(nf1.pesoB)))
            && (rows[2].nota2 == Str(NA) <==> peso(nf2.pesoB) == 0.0)
            && (rows[2].nota2 != Str(NA) ==> rows[2].nota2 == Kg(peso(nf2.pesoB)))
  {
  }

  /** The plate row compares normalised plates: "ok" exactly when the lab plate matches either invoice's. */
  lemma PlacaRow(nf1: NotaFiscal, nf2: NotaFiscal, laudo: Laudo, peso: string -> real)
    ensures var row := Comparar(nf1, nf2, laudo, peso).linhas[3];
            && (row.status == Ok <==> NormalizaPlaca(laudo.placa) == NormalizaPlaca(nf1.placa)
                                      || NormalizaPlaca(laudo.placa) == NormalizaPlaca(nf2.placa))
            && row.nota1 == Str(OrNA(NormalizaPlaca(nf1.placa)))
            && row.nota2 == Str(OrNA(NormalizaPlaca(nf2.placa)))
            && row.laudo == Str(OrNA(NormalizaPlaca(laudo.placa)))
  {
    NormalizaPlacaIdempotent(nf1.placa);
    NormalizaPlacaIdempotent(nf2.placa);
    NormalizaPlacaIdempotent(laudo.placa);
  }

  /** With no plate anywhere the plate row still reads "ok". */
  lemma PlacaRowAllEmpty(nf1: NotaFiscal, nf2: NotaFiscal, laudo: Laudo, peso: string -> real)
    requires nf1.placa == "" && nf2.placa == "" && laudo.placa == ""
    ensures Comparar(nf1, nf2, laudo, peso).linhas[3].status == Ok
    ensures Comparar(nf1, nf2, laudo, peso).linhas[3].nota1 == Str("N/A")
  {
  }

  /** A plate written with a dash or a state suffix matches the same plate written bare. */
  lemma PlacaRowIgnoresDashAndState(nf1: NotaFiscal, nf2: NotaFiscal, laudo: Laudo, peso: string -> real,
                                    plate: string, uf: string)
    requires IsPlate(plate) && IsUf(uf) && nf1.placa == plate + uf
    requires laudo.placa == UpperStr(WithoutDash(plate))
    ensures Comparar(nf1, nf2, laudo, peso).linhas[3].status == Ok
  {
    NormalizaPlacaOfPlateUf(plate, uf);
    NormalizaPlacaOfPlate(plate);
    NormalizaPlacaIdempotent(plate);
  }

  /**
   * A document without a `placa` element and without a trailer element
   * holding a plate falls back to its `infCpl` text; a `Carreta:` label there
   * supplies the plate, shown normalised in the plate row.
   */
  lemma CarretaFallback(doc: Document, nf2: NotaFiscal, laudo: Laudo, peso: string -> real, m: string)
    requires TagPlaca(doc) == "" && KeywordPlaca(doc) == ""
    requires IsPlate(m) && TagText(doc, "infCpl") == "Carreta: " + m
    ensures ParseNF(doc).placa == UpperStr(m)
    ensures Comparar(ParseNF(doc), nf2, laudo, peso).linhas[3].nota1 == Str(NormalizaPlaca(m))
  {
    PlacaStages(doc);
    CarretaLabelled("Carreta: " + m, m);
    NormalizaPlacaOfUpper(m);
    NormalizaPlacaOfPlate(m);
  }

  /** `Carreta: DEF-5678` in the free text gives `DEF5678` in the plate row. */
  lemma CarretaFallbackExample(doc: Document, nf2: NotaFiscal, laudo: Laudo, peso: string -> real, m: string)
    requires TagPlaca(doc) == "" && KeywordPlaca(doc) == ""
    requires m == "DEF-5678" && TagText(doc, "infCpl") == "Carreta: " + m
    ensures Comparar(ParseNF(doc), nf2, laudo, peso).linhas[3].nota1 == Str("DEF5678")
  {
    NormalizaPlacaDashExample(m);
    DashPlate(m);
    CarretaFallback(doc, nf2, laudo, peso, m);
  }

  /** The seals row: "N/A" without lab seals, "ok" when either invoice has exactly the lab's, "erro" otherwise. */
  lemma LacresRow(nf1: NotaFiscal, nf2: NotaFiscal, laudo: Laudo, peso: string -> real)
    ensures var st := Comparar(nf1, nf2, laudo, peso).linhas[4].status;
            && (st == NotApplicable <==> laudo.lacres == "")
            && (st == Ok <==> laudo.lacres != "" && (nf1.lacres == laudo.lacres || nf2.lacres == laudo.lacres))
            && (st == Erro <==> laudo.lacres != "" && nf1.lacres != laudo.lacres && nf2.lacres != laudo.lacres)
  {
  }

  /** The status column as the table shows it: each row's word is the one the
      source's conditional expression picks. */
  lemma StatusColumn(nf1: NotaFiscal, nf2: NotaFiscal, laudo: Laudo, peso: string -> real)
    ensures var rows := Comparar(nf1, nf2, laudo, peso).linhas;
            && StatusText(rows[0].status) == (if NormalizaNota(nf1.nNF) == NormalizaNota(laudo.nota) then "ok" else "erro")
            && StatusText(rows[1].status) == (if FloatEq(peso(nf1.pesoL), peso(nf2.pesoL)) then "ok" else "erro")
            && StatusText(rows[2].status) == (if FloatEq(peso(nf1.pesoB), peso(nf2.pesoB)) then "ok" else "erro")
            && StatusText(rows[3].status)
               == (if NormalizaPlaca(nf1.placa) == NormalizaPlaca(laudo.placa)
                      || NormalizaPlaca(nf2.placa) == NormalizaPlaca(laudo.placa) then "ok" else "erro")
            && StatusText(rows[4].status)
               == (if (nf1.lacres == laudo.lacres || nf2.lacres == laudo.lacres) && laudo.lacres != "" then "ok"
                   else if laudo.lacres != "" then "erro" else "N/A")
  {
    PlacaRow(nf1, nf2, laudo, peso);
  }

  /** The product summary shows the lab's code, production date and expiry, "N/A" for any missing. */
  lemma ProdutoInfoFields(nf1: NotaFiscal, nf2: NotaFiscal, laudo: Laudo, peso: string -> real)
    ensures var info := Comparar(nf1, nf2, laudo, peso).produtoInfo;
            && (info.produto == if laudo.codigoProd == "" then NA else laudo.codigoProd)
            && (info.dataFabricacao == if laudo.data == "" then NA else laudo.data)
            && (info.dataValidade == if laudo.validade == "" then NA else laudo.validade)
  {
  }

  /** End to end, the expiry shown is the calculator's result on the report's code and date. */
  lemma ProdutoValidade(doc1: Document, doc2: Document, csv: string, peso: string -> real)
    ensures var laudo := ParseLaudo(csv);
            Comparar(ParseNF(doc1), ParseNF(doc2), laudo, peso).produtoInfo.dataValidade
              == OrNA(Validade(laudo.codigoProd, laudo.data))
  {
  }
}

=== FILE: text.dfy ===
/** Character classes and string helpers with the meaning JavaScript gives
    them: `trim`, `split`, `toUpperCase`/`toLowerCase` on ASCII letters,
    `includes`, the `||` operator on strings, and decimal digits. */
module Text {

  /** A character that JavaScript's `trim` removes and that `\s` matches
      (WhiteSpace and LineTerminator of ECMA-262). */
  predicate IsSpace(c: char) {
    c == ' ' || c == '\t' || c == '\n' || c == '\r' || c == '\U{B}' || c == '\U{C}'
    || c == '\U{A0}' || c == '\U{1680}' || ('\U{2000}' <= c <= '\U{200A}')
    || c == '\U{2028}' || c == '\U{2029}' || c == '\U{202F}' || c == '\U{205F}'
    || c == '\U{3000}' || c == '\U{FEFF}'
  }

  predicate IsDigit(c: char) { '0' <= c <= '9' }
  predicate IsUpperLetter(c: char) { 'A' <= c <= 'Z' }
  predicate IsLowerLetter(c: char) { 'a' <= c <= 'z' }
  /** `[A-Z]` under the `i` flag. */
  predicate IsLetter(c: char) { IsUpperLetter(c) || IsLowerLetter(c) }
  /** `[A-Z0-9]` under the `i` flag. */
  predicate IsAlnum(c: char) { IsLetter(c) || IsDigit(c) }

  predicate AllDigits(s: string) { forall i :: 0 <= i < |s| ==> IsDigit(s[i]) }
  predicate NoSpace(s: string) { forall i :: 0 <= i < |s| ==> !IsSpace(s[i]) }
  /** Only upper-case ASCII letters and digits: the shape of a normalised plate. */
  predicate UpperAlnum(s: string) {
    forall i :: 0 <= i < |s| ==> IsUpperLetter(s[i]) || IsDigit(s[i])
  }

  function Upper(c: char): (u: char)
    ensures IsLetter(c) ==> IsUpperLetter(u)
    ensures !IsLowerLetter(c) ==> u == c
  {
    if IsLowerLetter(c) then (c as int - 32) as char else c
  }

  function Lower(c: char): (l: char)
    ensures IsLetter(c) ==> IsLowerLetter(l)
    ensures !IsUpperLetter(c) ==> l == c
  {
    if IsUpperLetter(c) then (c as int + 32) as char else c
  }

  /** `toUpperCase`, restricted to the ASCII letters it is applied to here. */
  function UpperStr(s: string): string {
    seq(|s|, i requires 0 <= i < |s| => Upper(s[i]))
  }

  /** `toLowerCase`, restricted to ASCII letters. */
  function LowerStr(s: string): string {
    seq(|s|, i requires 0 <= i < |s| => Lower(s[i]))
  }

  /** Upper-casing twice is upper-casing once. */
  lemma UpperStrTwice(s: string)
    ensures UpperStr(UpperStr(s)) == UpperStr(s)
  {
  }

  lemma UpperStrOfUpperAlnum(s: string)
    requires UpperAlnum(s)
    ensures UpperStr(s) == s
  {
  }

  /** The JavaScript `a || b` on two strings: `a` unless it is empty. */
  function Or(a: string, b: string): string {
    if a != "" then a else b
  }

  /** `lit` occurs in `s` starting at `i`. */
  predicate OccursAt(s: string, i: nat, lit: string) {
    i + |lit| <= |s| && s[i..i + |lit|] == lit
  }

  /** `s.includes(lit)`. */
  predicate Contains(s: string, lit: string) {
    exists i :: 0 <= i <= |s| && OccursAt(s, i, lit)
  }

  /** `/lit/i.test(s)` for a lower-case ASCII literal `lit`. */
  predicate ContainsIgnoringCase(s: string, lit: string) {
    Contains(LowerStr(s), lit)
  }

  /** `s.trimStart()`. */
  function TrimStart(s: string): string {
    if s != [] && IsSpace(s[0]) then TrimStart(s[1..]) else s
  }

  /** `s.trimEnd()`. */
  function TrimEnd(s: string): string {
    if s != [] && IsSpace(s[|s| - 1]) then TrimEnd(s[..|s| - 1]) else s
  }

  /** `s.trim()`. */
  function Trim(s: string): string {
    TrimEnd(TrimStart(s))
  }

  lemma {:induction false} TrimStartCuts(s: string)
    ensures var r := TrimStart(s);
            && |r| <= |s| && r == s[|s| - |r|..]
            && (r == [] || !IsSpace(r[0]))
            && forall k :: 0 <= k < |s| - |r| ==> IsSpace(s[k])
  {
    if s != [] && IsSpace(s[0]) {
      var r := TrimStart(s[1..]);
      TrimStartCuts(s[1..]);
      assert s[1..][|s| - 1 - |r|..] == s[|s| - |r|..];
      assert forall k :: 1 <= k < |s| - |r| ==> s[k] == s[1..][k - 1];
    }
  }

  lemma {:induction false} TrimEndCuts(s: string)
    ensures var r := TrimEnd(s);
            && |r| <= |s| && r == s[..|r|]
            && (r == [] || !IsSpace(r[|r| - 1]))
            && forall k :: |r| <= k < |s| ==> IsSpace(s[k])
  {
    if s != [] && IsSpace(s[|s| - 1]) { TrimEndCuts(s[..|s| - 1]); }
  }

  /** `trim` keeps the slice `s[a..b]` of its input that neither starts nor
      ends with white space, and cuts only white space on either side. */
  lemma TrimCuts(s: string) returns (a: nat, b: nat)
    ensures 0 <= a <= b <= |s| && Trim(s) == s[a..b]
    ensures Trim(s) == [] || (!IsSpace(Trim(s)[0]) && !IsSpace(Trim(s)[|Trim(s)| - 1]))
    ensures forall k :: 0 <= k < a ==> IsSpace(s[k])
    ensures forall k :: b <= k < |s| ==> IsSpace(s[k])
  {
    var t := TrimStart(s);
    TrimStartCuts(s);
    TrimEndCuts(t);
    var r := TrimEnd(t);
    a, b := |s| - |t|, |s| - |t| + |r|;
    assert r == s[a..b];
  }

  /** Trimming a string that has no white space at either end changes nothing. */
  lemma TrimNoop(s: string)
    requires s == [] || (!IsSpace(s[0]) && !IsSpace(s[|s| - 1]))
    ensures Trim(s) == s
  {
    assert TrimStart(s) == s;
  }

  lemma TrimOfNoSpace(s: string)
    requires NoSpace(s)
    ensures Trim(s) == s
  {
    TrimNoop(s);
  }

  /** `s.split(sep)` for a one-character separator or a character-class
      regular expression: the pieces between separators, empty ones included. */
  function Split(s: string, seps: set<char>): (r: seq<string>)
    ensures |r| >= 1
  {
    if s == [] then [""]
    else
      var rest := Split(s[1..], seps);
      if s[0] in seps then [""] + rest
      else [[s[0]] + rest[0]] + rest[1..]
  }

  /** `parts.join(sep)`. */
  function Join(parts: seq<string>, sep: char): string {
    if parts == [] then ""
    else if |parts| == 1 then parts[0]
    else parts[0] + [sep] + Join(parts[1..], sep)
  }

  /** Splitting on one character and joining back gives the input. */
  lemma {:induction false} JoinSplit(s: string, sep: char)
    ensures Join(Split(s, {sep}), sep) == s
  {
    if s != [] {
      var rest := Split(s[1..], {sep});
      JoinSplit(s[1..], sep);
      if s[0] == sep {
        assert Split(s, {sep}) == [""] + rest;
        assert Join([""] + rest, sep) == "" + [sep] + Join(rest, sep);
        assert [s[0]] + s[1..] == s;
      } else {
        assert Split(s, {sep}) == [[s[0]] + rest[0]] + rest[1..];
        if |rest| == 1 {
          assert Join(rest, sep) == rest[0];
        } else {
          assert Join(rest, sep) == rest[0] + [sep] + Join(rest[1..], sep);
          assert ([[s[0]] + rest[0]] + rest[1..])[1..] == rest[1..];
        }
        assert [s[0]] + s[1..] == s;
      }
    }
  }

  /** A string without separators is one piece. */
  lemma {:induction false} SplitNoSeparator(s: string, seps: set<char>)
    requires forall j :: 0 <= j < |s| ==> s[j] !in seps
    ensures Split(s, seps) == [s]
  {
    if s != [] {
      SplitNoSeparator(s[1..], seps);
      assert [s[0]] + s[1..] == s;
    }
  }

  /** One step of `Split`, on a string written as its first character and the rest. */
  lemma SplitCons(x: char, t: string, seps: set<char>)
    ensures var rt := Split(t, seps);
            Split([x] + t, seps) == if x in seps then [""] + rt else [[x] + rt[0]] + rt[1..]
  {
    assert ([x] + t)[0] == x && ([x] + t)[1..] == t;
  }

  /** Prepending one character keeps a split that ends in the pieces `rb`. */
  lemma SplitPrepend(x: char, t: string, u: string, rb: seq<string>, seps: set<char>)
    requires Split(t, seps) == Split(u, seps) + rb
    ensures Split([x] + t, seps) == Split([x] + u, seps) + rb
  {
    SplitCons(x, t, seps);
    SplitCons(x, u, seps);
    PiecesPrepend(x, Split(u, seps), rb, x in seps);
  }

  /** The list-level step behind `SplitPrepend`. */
  lemma PiecesPrepend(x: char, ru: seq<string>, rb: seq<string>, sep: bool)
    requires |ru| >= 1
    ensures var rt := ru + rb;
            (if sep then [""] + rt else [[x] + rt[0]] + rt[1..])
            == (if sep then [""] + ru else [[x] + ru[0]] + ru[1..]) + rb
  {
    var rt := ru + rb;
    if sep {
      assert [""] + rt == ([""] + ru) + rb;
    } else {
      var h := [[x] + ru[0]];
      assert rt[0] == ru[0] && rt[1..] == ru[1..] + rb;
      assert h + (ru[1..] + rb) == (h + ru[1..]) + rb;
    }
  }

  /** A separator between two strings splits them apart. */
  lemma {:induction false} SplitAtSeparator(a: string, c: char, b: string, seps: set<char>)
    requires c in seps
    ensures Split(a + [c] + b, seps) == Split(a, seps) + Split(b, seps)
  {
    if a == [] {
      assert a + [c] + b == [c] + b;
      SplitCons(c, b, seps);
    } else {
      var t := a[1..] + [c] + b;
      assert a + [c] + b == [a[0]] + t;
      assert a == [a[0]] + a[1..];
      SplitAtSeparator(a[1..], c, b, seps);
      SplitPrepend(a[0], t, a[1..], Split(b, seps), seps);
    }
  }

  /** `s.replace(/c/g, '')`. */
  function RemoveAll(s: string, c: char): string {
    if s == [] then ""
    else (if s[0] == c then "" else [s[0]]) + RemoveAll(s[1..], c)
  }

  function DigitValue(c: char): nat
    requires IsDigit(c)
  {
    c as int - '0' as int
  }

  function DigitChar(n: nat): (c: char)
    requires n < 10
    ensures IsDigit(c) && DigitValue(c) == n
  {
    ('0' as int + n) as char
  }

  /** The number written by a string of decimal digits. */
  function DecimalValue(s: string): nat
    requires AllDigits(s)
  {
    if s == [] then 0 else 10 * DecimalValue(s[..|s| - 1]) + DigitValue(s[|s| - 1])
  }

  /** A leading zero does not change the value of a digit string. */
  lemma {:induction false} DecimalValueLeadingZero(s: string)
    requires AllDigits(s)
    ensures AllDigits("0" + s) && DecimalValue("0" + s) == DecimalValue(s)
  {
    if s != [] {
      var z := "0" + s;
      assert z[..|z| - 1] == "0" + s[..|s| - 1];
      DecimalValueLeadingZero(s[..|s| - 1]);
    }
  }

  /** Decimal rendering of a natural number, without padding. */
  function NatToString(n: nat): (r: string)
    ensures 1 <= |r|
  {
    if n < 10 then [DigitChar(n)] else NatToString(n / 10) + [DigitChar(n % 10)]
  }

  lemma {:induction false} NatToStringDigits(n: nat)
    ensures AllDigits(NatToString(n))
  {
    if n >= 10 { NatToStringDigits(n / 10); }
  }

  /** Rendering then reading back gives the number. */
  lemma {:induction false} DecimalOfNatToString(n: nat)
    ensures AllDigits(NatToString(n)) && DecimalValue(NatToString(n)) == n
  {
    NatToStringDigits(n);
    if n >= 10 {
      DecimalOfNatToString(n / 10);
      var r := NatToString(n);
      assert r[..|r| - 1] == NatToString(n / 10);
    }
  }

  /** Two digit strings without leading zeros that denote the same number are equal. */
  lemma {:induction false} DigitsWithoutLeadingZero(a: string, b: string)
    requires AllDigits(a) && AllDigits(b) && (a == "" || a[0] != '0') && (b == "" || b[0] != '0')
    requires DecimalValue(a) == DecimalValue(b)
    ensures a == b
    decreases |a|
  {
    if a != "" && b != "" {
      var a', b' := a[..|a| - 1], b[..|b| - 1];
      assert DecimalValue(a) == 10 * DecimalValue(a') + DigitValue(a[|a| - 1]);
      assert DecimalValue(b) == 10 * DecimalValue(b') + DigitValue(b[|b| - 1]);
      assert DigitValue(a[|a| - 1]) == DigitValue(b[|b| - 1]);
      assert a' == "" || a'[0] == a[0];
      assert b' == "" || b'[0] == b[0];
      if a' == "" && b' != "" {
        PositiveValue(b');
      } else if b' == "" && a' != "" {
        PositiveValue(a');
      } else {
        DigitsWithoutLeadingZero(a', b');
      }
      assert a == a' + [a[|a| - 1]] && b == b' + [b[|b| - 1]];
    } else if a != "" {
      PositiveValue(a);
    } else if b != "" {
      PositiveValue(b);
    }
  }

  /** A digit string with a non-zero first digit is positive. */
  lemma {:induction false} PositiveValue(s: string)
    requires AllDigits(s) && s != "" && s[0] != '0'
    ensures DecimalValue(s) > 0
  {
    if |s| > 1 {
      PositiveValue(s[..|s| - 1]);
    }
  }
}

=== FILE: wrappers.dfy ===
/** The optional value used throughout the model: a regular-expression match
    that may be absent, a number that may be NaN, an index that may not exist. */
module Wrappers {

  datatype Option<+T> = None | Some(value: T)
}
